=== FILE: README.md ===
# hssl core in Dafny

A model of the bookkeeping core of hssl, a deep generative model of
histology images paired with spatial gene-expression counts. The model
covers two source files:

- `hssl/network.py`:
  - `Variational`, the latent-variable registry shared by the networks, and its complexity cost;
  - `Unpool` and the layer-size arithmetic of the image network `Histonet`, with its latent `z`;
  - `STD`, the count model. This covers which latents it registers and in what order, how a gene baseline seeds them, `rate_gt`, `logit`, `resample` and `forward`.
- `hssl/model/experiment/st.py`, the spatial-transcriptomics experiment `ST`:
  - its factor registry (`factors`, `add_factor`, `remove_factor` and the id counter);
  - how `model` pools per-pixel factor activities into per-spot rates and combines covariate effects;
  - how the guide initialises the factor and effect posteriors;
  - how `encode` spreads per-spot encodings over the pixels of each spot.

Files:

| file | module | contents |
|---|---|---|
| `wrappers.dfy` | `Wrappers` | `Option`, `Result`, `Outcome` |
| `tensors.dfy` | `Tensors` | real vectors and matrices, `Dot`, `MatMul`, `Transpose` |
| `latents.dfy` | `Latents` | the registry as a value, and the class `Variational` that updates it |
| `histonet.dfy` | `Histonet` | layer shapes, `Unpool`, and the class `Histonet` |
| `count_model.dfy` | `CountModel` | the latent schedule, the baseline, the rate and the logit, and the class `STD` |
| `factors.dfy` | `Factors` | the factor registry and its counter, and the class `ST` |
| `experiment.dfy` | `Experiment` | pooling, effects, the batch layout, the guide's initial posteriors, `encode` |

Each stateful object of the source is a class: `Variational`, `Histonet`,
`STD` and `ST`. Its methods are specified against a function on the object's
state, for example `State() == Add(old(State()), factor).value.0`. The
properties are proved as lemmas about those functions. The pure tensor
arithmetic is functions and lemmas.

Some parts of the system stay outside the model and appear only as
parameters:

- the mathematical functions (`exp`, `log`, the KL term of one latent);
- the trained networks (the expression encoder);
- the random draws. `resample` and `forward` receive the values they
  draw, one per latent, in registration order.

Floating-point tensors are modelled as reals.

## Model

| member | source | states |
|---|---|---|
| Latents.RegisterSpec | hssl/network.py:22-43 | registering an id that is already taken fails with `AlreadyRegistered` and changes nothing; registering a new id appends it, binds exactly that (variable, prior, is_global) triple for `_get_latent`, leaves every other id's lookup unchanged and keeps ids unique |
| Latents.CostSplit | hssl/network.py:45-50 | the complexity cost equals batch_fraction times the KL of the global latents plus the unscaled KL of the local latents |
| Latents.CostUnitFraction | hssl/network.py:45-50 | an empty registry costs 0; with batch_fraction 1 the cost is the plain sum of the latents' KL terms |
| Latents.RegisterAddsCost | hssl/network.py:22-50 | registering one more latent raises the complexity cost by exactly its KL, weighted by batch_fraction if it is global |
| Latents.AppendCost | hssl/network.py:45-50 | appending a fresh id bound to a latent keeps the registry valid and adds that latent's weighted KL to the cost |
| Latents.Variational.constructor | hssl/network.py:18-20 | a new `Variational` has no latents |
| Latents.Variational.RegisterLatent | hssl/network.py:22-36 | the new state is `Register` of the old one; on a taken id it returns the error and the state is unchanged |
| Latents.Variational.SetVariable | hssl/network.py:296-298 | sampling replaces only the variable stored under that id; the order and every other entry stay the same |
| Latents.Variational.Replace | hssl/network.py:276-281 | overwriting one latent's parameters changes only that entry |
| Histonet.UnpoolDefaults | hssl/network.py:53-72 | `out_channels` defaults to `in_channels`, `padding` to `kernel_size // 2`, and the stride becomes the upsampling factor of a stride-1 convolution |
| Histonet.UnpoolScales | hssl/network.py:53-77 | with default padding and an odd kernel, an `Unpool` multiplies height and width by its stride |
| Histonet.DownBlockShape | hssl/network.py:90-107 | each encoder stage halves height and width, rounding down, and refuses a wrong channel count or a side shorter than 2 |
| Histonet.EncoderShape | hssl/network.py:90-108 | the encoder maps a 3-channel H x W image to 16nf channels of (H/16) x (W/16), and refuses anything else or anything smaller than 16 x 16 |
| Histonet.LatentHeadShape | hssl/network.py:110-121 | `z_mu` and `z_sd` keep the spatial size and output `latent_size` channels |
| Histonet.UpBlockShape | hssl/network.py:130-145 | each decoder stage doubles height and width |
| Histonet.DecoderShape | hssl/network.py:125-146 | the decoder maps an h x w latent map to nf channels of 16(h+4) x 16(w+4) |
| Histonet.OutputHeadShape | hssl/network.py:148-168 | `img_mu`, `img_sd` and `mixture_loadings` keep the spatial size and output 3, 3 and `num_factors` channels |
| Histonet.DecodedExceedsInput | hssl/network.py:206-220 | the decoded side length exceeds the input's by 49 to 64 pixels, so cropping only removes pixels |
| Histonet.ForwardShape | hssl/network.py:206-220 | on shapes, `forward` succeeds exactly on 3-channel images of at least 16 x 16 pixels (BatchNorm's batch-size refusal aside, see Left out); z is (latent_size, H/16, W/16) and the image parameters, the loadings and the state are all cropped to H x W |
| Histonet.HistonetCost | hssl/network.py:122-123 | the registry holds only the local latent z, so its complexity cost is z's KL whatever the batch fraction |
| Histonet.Histonet.constructor | hssl/network.py:82-123 | a new `Histonet` keeps its size arguments (defaults 50, 96, 16) and has exactly one latent, `z`: `Normal()` with prior `Normal()`, local |
| Histonet.Histonet.Encode | hssl/network.py:174-190 | z's distribution becomes Normal(z_mu, z_sd) with the reparameterising transform, its value becomes the draw, and `encode` returns (z, z_mu, z_sd) |
| CountModel.StoredCovariates | hssl/network.py:260-268 | `_covariates` is the given list when it is non-empty, and `[]` when the list is absent or empty |
| CountModel.ScheduleOrder | hssl/network.py:252-266 | `__init__` registers r, rg, rt, rgt, l, lg in that order, followed by reff, leff, rgeff, lgeff exactly when covariates are given |
| CountModel.ScheduleDistinct | hssl/network.py:250-266 | no name is registered twice, so the registry's `RuntimeError` is never raised during construction |
| CountModel.LearnablePriors | hssl/network.py:252-266 | priors are learned for r, rg, l, lg, reff and leff, and fixed for rt, rgt, rgeff and lgeff |
| CountModel.ScheduleLayout | hssl/network.py:252-266 | the latents have shapes r (1,), rg (G,), rt (F,), rgt (G, F), l (1,), lg (G,), and, with covariates, reff and leff (n_fe,), rgeff and lgeff (n_fe, G) |
| CountModel.ConformsHasBase | hssl/network.py:276-281 | a registry built by the schedule has r and rg with Normal posteriors and priors, the latents the baseline seeds |
| CountModel.EffectWidthSums | hssl/network.py:262 | `n_fe` is the sum of the category counts of the covariate groups |
| CountModel.InitialConforms | hssl/network.py:236-250 | after the schedule's `_make_covariate` calls, every latent is registered in order as global, with posterior Normal(0, -5) of its shape and prior Normal(0, 0) |
| CountModel.InitialPrefix | hssl/network.py:236-266 | partway through the schedule the registry is valid and the next name is still free |
| CountModel.FreshMatches | hssl/network.py:236-250 | the latent `_make_covariate` builds matches its spec |
| CountModel.ConformsUpdate | hssl/network.py:276-298 | replacing a latent by one that still matches its spec keeps the registry conforming |
| CountModel.BaselineCheckAsWrittenRaisesIndexError | hssl/network.py:270-275 | as written, every length mismatch raises IndexError while the message is built, never the intended ValueError |
| CountModel.BaselineMismatchExample | hssl/network.py:270-275 | a 1-gene baseline for a 2-gene model raises IndexError as written, and ValueError(1 vs. 2) as intended |
| CountModel.CheckBaselineSpec | hssl/network.py:270-275 | the corrected check passes exactly when the baseline has one entry per gene, and otherwise reports both lengths |
| CountModel.LogBaseline | hssl/network.py:276 | `log(gene_baseline)` has one entry per gene |
| CountModel.Deviations | hssl/network.py:280-281 | the deviations from the mean have one entry per gene |
| CountModel.BaselineSplit | hssl/network.py:276-281 | the seeded means split log b: mean plus deviation gives back log b[g] for each gene, and the deviations sum to 0 |
| CountModel.BaselineRateGt | hssl/network.py:276-290 | with the seeded means as values and zero factor and interaction terms, `rate_gt` gives back b[g] for every factor, when exp inverts log |
| CountModel.SeededDrawsGiveBaseline | hssl/network.py:276-290 | on a drawn registry whose r and rg draws are the seeded mean and deviations, and whose rt and rgt draws are zero, the `rate_gt` that `forward` reads gives back b[g] for every factor, when exp inverts log |
| CountModel.RateGt | hssl/network.py:283-290 | `rate_gt` is a G x F matrix |
| CountModel.Logit | hssl/network.py:292-294 | `logit` has one entry per gene |
| CountModel.AddToRows | hssl/network.py:308 | the broadcast sum `v[:, None] + m` keeps the shape of `m` |
| CountModel.RateEntries | hssl/network.py:303 | entry (s, g) of `x @ rate_gt.t()` is row s of x weighted by gene g's rates over the factors |
| CountModel.Emit | hssl/network.py:301-311 | the rate is an S x G matrix; the logits are one row of G entries without effects, and one row per effects row (one shared row, or one per spot) with effects |
| CountModel.EmitPlainSpec | hssl/network.py:301-304 | without effects, rate[s,g] = x[s] . rate_gt[g] and the logit for every spot is l + lg[g] |
| CountModel.EmitEffectsRate | hssl/network.py:303-308 | with effects, rate[s,g] = x[s] . rate_gt[g] times exp(E[s] . (reff + rgeff[:, g])), where a single effects row E[0] applies to every spot |
| CountModel.EmitEffectsLogit | hssl/network.py:304-310 | with effects, the logit for spot s and gene g is l + lg[g] + E[s] . (leff + lgeff[:, g]), where a single effects row E[0] applies to every spot |
| CountModel.SharedRowBroadcasts | hssl/network.py:305-310 | one effects row shared by all spots gives the same rate and logit at every spot as that row repeated once per spot |
| CountModel.ZeroEffectsNeutral | hssl/network.py:305-310 | all-zero effects give the same rates and logits as no effects, when exp(0) = 1 |
| CountModel.DrawnValue | hssl/network.py:283-294 | the value `forward` reads from a latent has the shape its spec gives |
| CountModel.TermsOf | hssl/network.py:283-294 | the base values read by `rate_gt` and `logit` have G gene entries and F factor entries |
| CountModel.Redraw | hssl/network.py:296-298 | resampling in registration order keeps the order of the ids |
| CountModel.RedrawValid | hssl/network.py:296-298 | resampling binds the same ids as before, so the registry stays valid |
| CountModel.RedrawSpec | hssl/network.py:296-298 | after resampling the first i latents, each of them stores its own draw as its value and nothing else about it changes, and every later latent is untouched |
| CountModel.RedrawConforms | hssl/network.py:296-298 | after a full resample every latent has been drawn and holds its own draw |
| CountModel.BaselineConforms | hssl/network.py:276-281 | seeding the baseline keeps the registry conforming to the schedule |
| CountModel.STD.Init | hssl/network.py:225-268 | the constructor keeps its arguments, stores `_covariates`, and leaves the registry as the schedule registered it |
| CountModel.STD.MakeCovariate | hssl/network.py:236-250 | one `_make_covariate` call extends the registry by the next scheduled latent |
| CountModel.STD.Create | hssl/network.py:225-281 | with the corrected length check (see Findings), construction fails exactly when a baseline of the wrong length is given, reporting both lengths; otherwise the registry is the scheduled one, seeded with the baseline if one is given |
| CountModel.STD.SeedBaseline | hssl/network.py:276-281 | r's and rg's posterior and prior means become the mean of log b and the deviations from it; nothing else changes |
| CountModel.STD.Resample | hssl/network.py:296-299 | every latent stores its own draw, in registration order, and the registry stays conforming |
| CountModel.DrawnTerms | hssl/network.py:283-311 | after a resample, the values `rate_gt`, `logit` and the effect terms read are the draws in registration order (r, rg, rt, rgt, l, lg, then reff, leff, rgeff, lgeff) |
| CountModel.ForwardResult | hssl/network.py:301-311 | on the drawn registry, `forward` fails exactly when effects of any width are given to a model without covariates, reporting the missing `reff` latent, and otherwise yields an S x G rate; the effects may be one row shared by all spots or one row per spot |
| CountModel.STD.Forward | hssl/network.py:296-311 | `forward` first resamples, so every latent stores its own draw, then returns `ForwardResult` on the new values |
| Factors.Items | hssl/model/experiment/st.py:41-43 | the items come in insertion order, each pairing an id with its stored factor |
| Factors.PushNext | hssl/model/experiment/st.py:48-61 | an id pushed back onto the counter is the next one drawn, and the counter returns to what it was before |
| Factors.NextInactive | hssl/model/experiment/st.py:48-49 | under the invariant the counter's next id is never active, so the assertion in `add_factor` cannot fail |
| Factors.AddSpec | hssl/model/experiment/st.py:45-52 | `add_factor` always succeeds: it appends the counter's next id, stores the factor under it (`(0., None)` when none is given), leaves the other entries alone and keeps the invariant |
| Factors.WithoutMembers | hssl/model/experiment/st.py:57 | removing a key from the order removes exactly that key |
| Factors.WithoutDistinct | hssl/model/experiment/st.py:57 | removing a key keeps the order free of duplicates |
| Factors.RemoveSpec | hssl/model/experiment/st.py:54-61 | `remove_factor(n)` fails with `NoSuchFactor(n)` exactly when n is not active; otherwise it drops only n, keeps the other ids in order, pushes n onto the counter and keeps the invariant |
| Factors.InitSpec | hssl/model/experiment/st.py:25-39 | constructing with k factors stores them under ids 0 .. k-1 in order, nothing recycled, next id k |
| Factors.RemoveThenAdd | hssl/model/experiment/st.py:45-61 | after removing n, the next `add_factor` reuses n and appends it at the end of the order |
| Factors.RemovalsComeBackReversed | hssl/model/experiment/st.py:45-61 | after removing a and then b, the next two additions reuse b first, then a |
| Factors.ExampleRun | hssl/model/experiment/st.py:45-61 | add, add, remove(0), add leaves ids 1 and 0, in that order, and the next addition gets 2 |
| Factors.ST.constructor | hssl/model/experiment/st.py:25-39 | a new `ST` holds the registry of `InitSpec` and the default scale |
| Factors.ST.AddFactor | hssl/model/experiment/st.py:45-52 | the new state is `Add` of the old one, which `AddSpec` proves always succeeds |
| Factors.ST.RemoveFactor | hssl/model/experiment/st.py:54-61 | the new state is `Remove` of the old one; on an inactive id it returns the error and changes nothing |
| Factors.ST.GetFactors | hssl/model/experiment/st.py:41-43 | `factors` returns the active ids in insertion order with their stored factors |
| Experiment.Flatten | hssl/model/experiment/st.py:139 | flattening an image with W-entry rows gives H * W entries |
| Experiment.Unflatten | hssl/model/experiment/st.py:220 | reshaping H * W entries gives H rows of W entries |
| Experiment.FlattenIndex | hssl/model/experiment/st.py:139 | pixel (i, j) is entry i * W + j of the flattened image |
| Experiment.FlattenUnflatten | hssl/model/experiment/st.py:220 | reshaping to H x W and flattening gives the vector back |
| Experiment.UnflattenFlatten | hssl/model/experiment/st.py:139 | flattening an image and reshaping it to its own size gives the image back |
| Experiment.UnflattenIndex | hssl/model/experiment/st.py:220 | entry (i, j) of the reshaped vector is entry i * W + j |
| Experiment.PixelRows | hssl/model/experiment/st.py:142 | the permuted `rim` has one row per pixel and one column per factor |
| Experiment.PixelRowsIndex | hssl/model/experiment/st.py:142 | row i * W + j, column m of the permuted `rim` is channel m at pixel (i, j) |
| Experiment.OneHot | hssl/model/experiment/st.py:139 | the one-hot matrix has a row per pixel, and that row is the indicator of the pixel's label |
| Experiment.DotLabelColumn | hssl/model/experiment/st.py:140-143 | column k of the one-hot matrix dotted with a pixel vector is the vector summed over the pixels labelled k |
| Experiment.Pool | hssl/model/experiment/st.py:139-143 | pooling gives one row per label and one column per factor |
| Experiment.PoolSpec | hssl/model/experiment/st.py:139-143 | pooled entry (k, m) is channel m summed over the pixels labelled k |
| Experiment.ComputeSampleParams | hssl/model/experiment/st.py:138-145 | a sample with labels 0 .. L-1 gives L-1 rows of rates and of logits, one row per spot, each with G entries |
| Experiment.ComputeSampleParamsSpec | hssl/model/experiment/st.py:138-145 | spot i, which has label i+1, gets rate sum over m of (channel m summed over its pixels) * exp(rmg[m][g]), and its logits are lg; the background row is dropped |
| Experiment.EmptySpotHasZeroRate | hssl/model/experiment/st.py:138-145 | a spot label that no pixel carries gets rate 0 for every gene |
| Experiment.FlattenedBelow | hssl/model/experiment/st.py:139 | the flattened labels stay below the one-hot width when the image's do |
| Experiment.LabelSumAbsent | hssl/model/experiment/st.py:140-143 | the pooled sum over a label no pixel carries is 0 |
| Experiment.Concat | hssl/model/experiment/st.py:147-155 | `t.cat` has as many rows as all samples together |
| Experiment.ConcatIndex | hssl/model/experiment/st.py:147-155 | row i of sample b sits at row (rows of the samples before b) + i of the concatenation |
| Experiment.OffsetsAgree | hssl/model/experiment/st.py:147-155 | batches whose samples have equally many rows place every sample at the same offset |
| Experiment.BatchRowsAlign | hssl/model/experiment/st.py:147-156 | when each sample has one spot row per observed spot, the concatenated rates, logits and observed counts line up, with spot i of sample b in the same row of all three |
| Experiment.CombineEffects | hssl/model/experiment/st.py:120-132 | the shifted profiles are batch x factors x genes and the logits batch x genes |
| Experiment.CombineEffectsSpec | hssl/model/experiment/st.py:130-132 | every factor profile of sample b is shifted by that sample's covariates weighted by `rgeff`'s gene column; its logits are its covariates weighted by `lgeff`'s gene column |
| Experiment.NoEffectsKeepProfiles | hssl/model/experiment/st.py:130-132 | a sample with an all-zero covariate row keeps the shared profiles and gets zero logits |
| Experiment.PerFactor | hssl/model/experiment/st.py:100-118 | `rim` gets one channel per active factor and `rmg` one row per active factor, and entry m comes from the m-th active factor in the order of `self.factors` |
| Experiment.RemovedFactorDropsItsChannel | hssl/model/experiment/st.py:100-118 | `rim` channel m and `rmg` row m come from the same factor; removing the factor at position k drops exactly that channel and that row and keeps the rest in order |
| Experiment.FactorPosterior | hssl/model/experiment/st.py:182-198 | a factor's posterior mean starts at its default profile, or at zeros(G) when it has none, and its standard deviation at 0.01 with the same shape |
| Experiment.FactorPosteriors | hssl/model/experiment/st.py:182-198 | the guide creates one posterior per active factor |
| Experiment.InitialPosteriors | hssl/model/experiment/st.py:182-198 | for an `ST` built with factors, the guide's i-th posterior belongs to id i and starts at that factor's default, or at zeros(G) |
| Experiment.EffectPosterior | hssl/model/experiment/st.py:163-180 | the `rgeff` and `lgeff` posteriors are #covariates x G, with means 0 and standard deviations 0.01 |
| Experiment.Padded | hssl/model/experiment/st.py:214-216 | the padded counts are (N+1) x (G+1) |
| Experiment.PaddedLayout | hssl/model/experiment/st.py:214-216 | row 0 is the missing-spot marker [1, 0, ..., 0]; row i+1 is 0 followed by spot i's counts |
| Experiment.Scatter | hssl/model/experiment/st.py:218-219 | the scattered encodings have one row per pixel and D columns |
| Experiment.ScatterSpec | hssl/model/experiment/st.py:218-219 | each pixel receives exactly the encoded row of its label |
| Experiment.Encode | hssl/model/experiment/st.py:213-220 | `encode` returns D channels of the label image's size |
| Experiment.EncodeSpec | hssl/model/experiment/st.py:213-220 | channel d at pixel (i, j) is feature d of the encoding of the pixel's spot; background pixels get the encoding of the missing-spot marker |

## Left out

- Sampling, the Pyro runtime and its naming: `p.sample`, `p.param`, `p.module`, `scope` and `poutine.scale` are not modelled. Every sampled value is a parameter of the operation that uses it.
- Neural layers are shapes only: convolution weights, LeakyReLU, BatchNorm, Tanh, Softplus and softmax are not computed. This covers `_get_scale_decoder`, `_get_factor_decoder` and their constant initialisation, the `scale` multiplication and the softmax over `rim`.
- The expression encoder is an uninterpreted function of the padded counts.
- `decode` and `Histonet`'s `_crop` appear only through the shape of what they return.
- `center_crop`, `sparseonehot`, `find_device` and `store_init_args` belong to `hssl/utility`, which is not part of this model. The crop is a shape operation on sizes no larger than the map. The one-hot width is a parameter `L`, which the labels must stay below.
- The guide's nearest-neighbour resize of the label image (`interpolate`) is not part of the model. `Encode` takes the label image at the size it is used.
- `Image._sample_image`, the superclass guide and `self.n / len(x)` scaling belong to the image experiment, which is not part of this model.
- Logging (`log(DEBUG, ...)`) is not modelled.
- The `log_prob` difference of one latent is a parameter `kl` in `ComplexityCost`; distributions are not evaluated.
- `exp` and `log` are parameters. `BaselineRateGt` and `ZeroEffectsNeutral` assume only that exp inverts log on positive reals and that exp(0) = 1.
- CountModel.Mean: the mean of an empty baseline is NaN in the source; the model's `Mean` gives 0. This can only happen when there are no genes.
- Factors.ST.AddFactor: returns nothing, while `add_factor` returns `self` for chaining. The state change is the same.
- Factors.ST.GetFactors: returns the items as a value. This is how `deepcopy` protects the registry. Aliasing inside the copied tensors is not modelled.
- CountModel.STD.Init: performs the `_make_covariate` calls by a loop over the schedule table rather than as ten separate call sites. The calls, their order and their arguments are the same.
- `complexity_cost` is modelled as in the code, which scales the global latents by `batch_fraction` and leaves the local ones unscaled. `CostSplit` proves the code's weighting.
- Integer widths do not matter here; ids, counts and sizes are unbounded.
- CountModel.STD.Create: uses the corrected baseline length check `CheckBaseline`, so a wrong-length baseline is reported as a mismatch of both lengths. The code as written raises IndexError while building that message (hssl/network.py:271-275); `BaselineCheckAsWrittenRaisesIndexError` models that behaviour, and the Findings table records it.
- CountModel.ForwardResult: the requires admit an `x` with F columns and, on a model with covariates, effects of width `n_fe` with either one row shared by all spots or one row per spot. Shapes torch rejects are excluded: the wrong width, or a row count that is neither 1 nor S when S > 1. One case torch accepts is excluded too: a single spot (S = 1) with k > 1 effects rows. Torch would broadcast that to a k x G result, outside the spots x genes shape `forward` is documented to return. A 1-D `x` or 1-D effects vector is taken in its one-row matrix form, which gives the same 1 x G result torch's broadcasting gives. The same holds for `CountModel.STD.Forward`.
- CountModel.STD.SeedBaseline: in the source, r's posterior mean and prior mean are set to the same tensor `lgb_mean`, so later in-place updates move both. The model copies the value into both, and that sharing is not modelled. rg's two means are separate tensors in the source as well.
- Latents.RegisterSpec: the source stores each latent in three module attributes, `id`, `id_p` and `id_is_global`, and only checks `id` against `_latents`. Registering an id such as `a_p` after `a` would overwrite `a`'s prior in the source, while the model keeps the two apart. The model assumes ids never collide with another id's `_p` or `_is_global` name or with other module attributes. The source does not check this, but the names actually registered (`z`, and r, rg, rt, rgt, l, lg, reff, leff, rgeff, lgeff) never collide.
- Histonet.ForwardShape: the batch dimension is not modelled. In training mode, `BatchNorm2d` refuses a batch with one value per channel, which happens after the fourth encoder stage for a single image whose height and width both lie between 16 and 31. The model still gives `Some` there.

## Findings

| source | as written | input that shows it | evidently intended | confidence | as-written member | corrected member |
|---|---|---|---|---|---|---|
| hssl/network.py:271-275 | the error message reads `gene_baseline.shape[1]`. The baseline is one-dimensional, so building the message raises IndexError, and the ValueError is never raised | a baseline of length 1 for 2 genes | raise ValueError naming both lengths | not executed | CountModel.BaselineCheckAsWrittenRaisesIndexError | CountModel.CheckBaselineSpec |

=== FILE: count_model.dfy ===
/**
 * The spatial count model `STD` (hssl/network.py:223-311): the fixed
 * schedule of latents its constructor registers, the gene-baseline seeding,
 * and the rate and logit algebra of `rate_gt`, `logit` and `forward`.
 *
 * `exp` and `log` are parameters (functions over the reals that the model
 * does not interpret); the negative-binomial constructor is the datatype
 * `NegBinomial`, which only records its two arguments.
 */
module CountModel {
  import opened Wrappers
  import opened Tensors
  import opened Latents

  /** A covariate group: its name and the list of its categories. */
  datatype Covariate = Covariate(name: string, categories: seq<string>)

  /** One call `_make_covariate(name, shape, learn_prior)`. */
  datatype LatentSpec = LatentSpec(name: string, shape: Shape, learnPrior: bool)

  datatype StdError =
    | BaselineMismatch(given: nat, expected: nat)  // the ValueError of network.py:272
    | TupleIndexOutOfRange                         // IndexError from evaluating `shape[1]` of a 1-D array
    | MissingLatent(id: string)                    // AttributeError: effects passed to a model without covariates

  /** `n_fe`: the total number of categories over all covariate groups. */
  function EffectWidth(covariates: seq<Covariate>): nat {
    if covariates == [] then 0 else |covariates[0].categories| + EffectWidth(covariates[1..])
  }

  /** `_covariates`: the given list when it is non-empty, otherwise `[]` (also for `None`). */
  function StoredCovariates(covariates: Option<seq<Covariate>>): (stored: seq<Covariate>)
    ensures covariates.Some? && |covariates.value| > 0 ==> stored == covariates.value
    ensures covariates.None? || covariates.value == [] ==> stored == []
  {
    if covariates.Some? && |covariates.value| > 0 then covariates.value else []
  }

  /**
   * The latents `STD.__init__` registers, in order, for G genes, F factors
   * and the stored covariates: six base latents, then four effect latents
   * of width `n_fe` when there are covariates.
   */
  function Schedule(G: nat, F: nat, covariates: seq<Covariate>): (specs: seq<LatentSpec>)
    ensures |specs| == if |covariates| > 0 then 10 else 6
  {
    var n := EffectWidth(covariates);
    seq(if |covariates| > 0 then 10 else 6, (k: int) requires 0 <= k => ScheduleEntry(G, F, n, k))
  }

  /** The `k`-th `_make_covariate` call of `STD.__init__`. */
  function ScheduleEntry(G: nat, F: nat, n: nat, k: nat): LatentSpec {
    if k == 0 then LatentSpec("r", Dim1(1), true)
    else if k == 1 then LatentSpec("rg", Dim1(G), true)
    else if k == 2 then LatentSpec("rt", Dim1(F), false)
    else if k == 3 then LatentSpec("rgt", Dim2(G, F), false)
    else if k == 4 then LatentSpec("l", Dim1(1), true)
    else if k == 5 then LatentSpec("lg", Dim1(G), true)
    else if k == 6 then LatentSpec("reff", Dim1(n), true)
    else if k == 7 then LatentSpec("leff", Dim1(n), true)
    else if k == 8 then LatentSpec("rgeff", Dim2(n, G), false)
    else LatentSpec("lgeff", Dim2(n, G), false)
  }

  function Names(specs: seq<LatentSpec>): (names: seq<string>)
    ensures |names| == |specs| && forall i :: 0 <= i < |specs| ==> names[i] == specs[i].name
  {
    seq(|specs|, i requires 0 <= i < |specs| => specs[i].name)
  }

  /** The posterior `_make_covariate` builds: zero mean and raw scale -5 of the given shape, learned. */
  function Posterior(s: Shape): Dist {
    Normal(Full(s, 0.0), Full(s, -5.0), true)
  }

  /** The prior: scalar parameters 0 and 0, learned only when `learn_prior` is set. */
  function Prior(learnPrior: bool): Dist {
    Normal(Scalar(0.0), Scalar(0.0), learnPrior)
  }

  /** The latent `_make_covariate` registers, always with `is_global = True`. */
  function Fresh(spec: LatentSpec): Latent {
    Latent(Variable(Posterior(spec.shape), None), Prior(spec.learnPrior), true)
  }

  /** The registry after registering the latents of `specs`, freshly made, in that order. */
  function Initial(specs: seq<LatentSpec>): Registry {
    if specs == [] then Empty
    else
      var r := Initial(specs[..|specs| - 1]);
      var spec := specs[|specs| - 1];
      Registry(r.ids + [spec.name], r.table[spec.name := Fresh(spec)])
  }

  ghost predicate DistinctNames(specs: seq<LatentSpec>) {
    forall i, j :: 0 <= i < j < |specs| ==> specs[i].name != specs[j].name
  }

  /** A latent as `_make_covariate` shaped it, whatever its means and last draw became since. */
  ghost predicate Matches(l: Latent, spec: LatentSpec) {
    && l.isGlobal
    && l.variable.q.Normal? && l.variable.q.learnable
    && l.variable.q.loc.HasShape(spec.shape) && l.variable.q.scale.HasShape(spec.shape)
    && l.prior.Normal? && l.prior.learnable == spec.learnPrior
    && (l.variable.value.Some? ==> l.variable.value.value.HasShape(spec.shape))
  }

  ghost predicate Conforms(r: Registry, specs: seq<LatentSpec>) {
    && r.Valid()
    && r.ids == Names(specs)
    && forall i :: 0 <= i < |specs| ==> specs[i].name in r.table && Matches(r.table[specs[i].name], specs[i])
  }

  /** Every latent of `specs` has been drawn at least once. */
  ghost predicate Drawn(r: Registry, specs: seq<LatentSpec>) {
    Conforms(r, specs) && forall i :: 0 <= i < |specs| ==> r.table[specs[i].name].variable.value.Some?
  }

  // ------------------------------------------------------- gene baseline

  /** r and rg are registered with Normal posteriors and priors. */
  ghost predicate HasBase(reg: Registry) {
    && "r" in reg.table && "rg" in reg.table
    && reg.table["r"].variable.q.Normal? && reg.table["r"].prior.Normal?
    && reg.table["rg"].variable.q.Normal? && reg.table["rg"].prior.Normal?
  }

  /** The mean of a vector; the empty vector is given mean 0. */
  function Mean(xs: seq<real>): real {
    if xs == [] then 0.0 else Sum(xs) / (|xs| as real)
  }

  /** `log(gene_baseline)`, its mean, and its deviations from the mean. */
  function LogBaseline(b: seq<real>, log: real -> real): (lgb: seq<real>)
    ensures |lgb| == |b|
  {
    seq(|b|, g requires 0 <= g < |b| => log(b[g]))
  }

  function Deviations(xs: seq<real>, c: real): (d: seq<real>)
    ensures |d| == |xs|
  {
    seq(|xs|, g requires 0 <= g < |xs| => xs[g] - c)
  }

  /** The shape tuple of a 1-D array of length n, and Python's tuple indexing on it. */
  function ShapeAt(shape: seq<nat>, i: nat): Result<nat, StdError> {
    if i < |shape| then Success(shape[i]) else Failure(TupleIndexOutOfRange)
  }

  /**
   * The length check as written (network.py:271-275): on a mismatch the
   * error message reads `gene_baseline.shape[1]`, which a 1-D baseline does
   * not have, so the message itself raises.
   */
  function CheckBaselineAsWritten(b: seq<real>, G: nat): Outcome<StdError> {
    if |b| != G then
      match ShapeAt([|b|], 1)
      case Success(width) => Fail(BaselineMismatch(width, G))
      case Failure(e) => Fail(e)
    else Pass
  }

  /** The length check as intended: a mismatch is reported with both lengths. */
  function CheckBaseline(b: seq<real>, G: nat): Outcome<StdError> {
    if |b| != G then Fail(BaselineMismatch(|b|, G)) else Pass
  }

  /** The registry after `r_q_mu`, `r_p_mu`, `rg_q_mu` and `rg_p_mu` are overwritten (network.py:276-281). */
  function WithBaseline(reg: Registry, b: seq<real>, log: real -> real): Registry
    requires HasBase(reg)
  {
    var lgb := LogBaseline(b, log);
    var m := Mean(lgb);
    reg.(table := reg.table["r" := Seeded(reg.table["r"], Vec([m]))]["rg" := Seeded(reg.table["rg"], Vec(Deviations(lgb, m)))])
  }

  /** A latent whose posterior and prior means are both overwritten with `loc`. */
  function Seeded(l: Latent, loc: Tensor): Latent
    requires l.variable.q.Normal? && l.prior.Normal?
  {
    l.(variable := l.variable.(q := l.variable.q.(loc := loc)), prior := l.prior.(loc := loc))
  }

  // ------------------------------------------------------- rate and logit

  /** The sampled values of the six base latents. */
  datatype Terms = Terms(r: real, rg: seq<real>, rt: seq<real>, rgt: Matrix, l: real, lg: seq<real>) {
    ghost predicate Valid() {
      IsMatrix(rgt, |rg|, |rt|) && |lg| == |rg|
    }
  }

  /** The sampled values of the four effect latents. */
  datatype EffectTerms = EffectTerms(reff: seq<real>, leff: seq<real>, rgeff: Matrix, lgeff: Matrix)

  /** `rate_gt`: the G x F matrix exp(r + rg[g] + rt[f] + rgt[g, f]). */
  function RateGt(t: Terms, exp: real -> real): (m: Matrix)
    requires t.Valid()
    ensures IsMatrix(m, |t.rg|, |t.rt|)
  {
    seq(|t.rg|, g requires 0 <= g < |t.rg| =>
      seq(|t.rt|, f requires 0 <= f < |t.rt| => exp(t.r + t.rg[g] + t.rt[f] + t.rgt[g][f])))
  }

  /** `logit`: l + lg, one entry per gene. */
  function Logit(t: Terms): (v: seq<real>)
    requires t.Valid()
    ensures |v| == |t.rg|
  {
    seq(|t.lg|, g requires 0 <= g < |t.lg| => t.l + t.lg[g])
  }

  /** `v[:, None] + m`: adds `v[e]` to every entry of row `e`. */
  function AddToRows(v: seq<real>, m: Matrix): (s: Matrix)
    requires |v| == |m|
    ensures |s| == |m| && forall e :: 0 <= e < |m| ==> |s[e]| == |m[e]|
  {
    seq(|m|, e requires 0 <= e < |m| => seq(|m[e]|, g requires 0 <= g < |m[e]| => v[e] + m[e][g]))
  }

  /** The arguments of `NegativeBinomial(total_count, logits=...)`; logits with one row broadcast over all rows. */
  datatype NegBinomial = NegBinomial(totalCount: Matrix, logits: Matrix) {
    function LogitAt(s: nat, g: nat): real
      requires |logits| == 1 || s < |logits|
      requires g < |logits[if |logits| == 1 then 0 else s]|
    {
      if |logits| == 1 then logits[0][g] else logits[s][g]
    }
  }

  /** The effect terms have widths matching `n` effect columns and G genes. */
  ghost predicate EffectsFit(e: EffectTerms, n: nat, G: nat) {
    |e.reff| == n && |e.leff| == n && IsMatrix(e.rgeff, n, G) && IsMatrix(e.lgeff, n, G)
  }

  /**
   * The shapes of `effects` that broadcast against S spots: one row of `n`
   * covariate columns shared by every spot, or one row per spot.
   */
  predicate EffectsShape(E: Matrix, S: nat, n: nat) {
    IsMatrix(E, |E|, n) && (|E| == 1 || |E| == S)
  }

  /** The row of `effects` that applies to spot `s`: the single shared row, or row `s`. */
  function EffectRow(E: Matrix, s: nat): (i: nat)
    ensures |E| == 1 ==> i == 0
    ensures |E| != 1 ==> i == s
  {
    if |E| == 1 then 0 else s
  }

  /**
   * The count distribution `forward(x, effects)` returns once the latents
   * hold the values `t` and `e`: rate = x @ rate_gt.t(), scaled by
   * exp(effects @ (reff[:, None] + rgeff)) when effects are given; logit =
   * l + lg, offset by effects @ (leff[:, None] + lgeff).
   */
  function Emit(x: Matrix, effects: Option<(Matrix, EffectTerms)>, t: Terms, exp: real -> real): (nb: NegBinomial)
    requires t.Valid() && IsMatrix(x, |x|, |t.rt|)
    requires effects.Some? ==> EffectsShape(effects.value.0, |x|, |effects.value.1.reff|)
                               && EffectsFit(effects.value.1, |effects.value.1.reff|, |t.rg|)
    ensures IsMatrix(nb.totalCount, |x|, |t.rg|)
    ensures IsMatrix(nb.logits, if effects.None? then 1 else |effects.value.0|, |t.rg|)
  {
    var G := |t.rg|;
    var rate := MatMul(x, Transpose(RateGt(t, exp), |t.rt|), G);
    match effects
    case None => NegBinomial(rate, [Logit(t)])
    case Some((E, e)) =>
      var rateEffect := MatMul(E, AddToRows(e.reff, e.rgeff), G);
      var logitEffect := MatMul(E, AddToRows(e.leff, e.lgeff), G);
      NegBinomial(
        seq(|x|, s requires 0 <= s < |x| => seq(G, g requires 0 <= g < G => rate[s][g] * exp(rateEffect[EffectRow(E, s)][g]))),
        seq(|E|, i requires 0 <= i < |E| => seq(G, g requires 0 <= g < G => Logit(t)[g] + logitEffect[i][g])))
  }

  // ---------------------------------------------------------------- lemmas

  /** r, rg, rt, rgt, l, lg are always registered, in that order, and reff, leff, rgeff, lgeff after them exactly when covariates are given. */
  lemma ScheduleOrder(G: nat, F: nat, covariates: seq<Covariate>)
    ensures |covariates| == 0 ==> Names(Schedule(G, F, covariates)) == ["r", "rg", "rt", "rgt", "l", "lg"]
    ensures |covariates| > 0 ==>
      Names(Schedule(G, F, covariates)) == ["r", "rg", "rt", "rgt", "l", "lg", "reff", "leff", "rgeff", "lgeff"]
    ensures DistinctNames(Schedule(G, F, covariates))
  {
    ScheduleDistinct(G, F, covariates);
  }

  /** No name is registered twice. */
  lemma ScheduleDistinct(G: nat, F: nat, covariates: seq<Covariate>)
    ensures DistinctNames(Schedule(G, F, covariates))
  {
  }

  /** Priors are learned for r, rg, l, lg, reff and leff, and fixed for rt, rgt, rgeff and lgeff. */
  lemma LearnablePriors(G: nat, F: nat, covariates: seq<Covariate>)
    ensures forall spec :: spec in Schedule(G, F, covariates) ==>
      (spec.learnPrior <==> spec.name in ["r", "rg", "l", "lg", "reff", "leff"])
  {
  }

  /** The effect latents have the width `n_fe`, the summed category counts. */
  lemma {:induction false} EffectWidthSums(covariates: seq<Covariate>, extra: Covariate)
    ensures EffectWidth(covariates + [extra]) == EffectWidth(covariates) + |extra.categories|
  {
    if covariates != [] {
      assert (covariates + [extra])[1..] == covariates[1..] + [extra];
      EffectWidthSums(covariates[1..], extra);
    } else {
      assert covariates + [extra] == [extra];
    }
  }

  /** Registering the latents of `specs` in order yields them in that order, each as `_make_covariate` shaped it. */
  lemma {:induction false} InitialConforms(specs: seq<LatentSpec>)
    requires DistinctNames(specs)
    ensures Conforms(Initial(specs), specs)
    ensures forall i :: 0 <= i < |specs| ==> Initial(specs).table[specs[i].name] == Fresh(specs[i])
  {
    if specs != [] {
      var front, spec := specs[..|specs| - 1], specs[|specs| - 1];
      InitialConforms(front);
      var r, r' := Initial(front), Initial(specs);
      assert Names(specs) == Names(front) + [spec.name];
      forall k | 0 <= k < |r.ids|
        ensures r.ids[k] != spec.name
      {
        assert r.ids[k] == specs[k].name;
      }
      forall i | 0 <= i < |specs|
        ensures specs[i].name in r'.table && r'.table[specs[i].name] == Fresh(specs[i])
        ensures Matches(r'.table[specs[i].name], specs[i])
      {
        if i < |specs| - 1 {
          assert specs[i] == front[i];
        }
        FreshMatches(specs[i]);
      }
    }
  }

  /** Part way through the schedule, the registry is valid and the next name is still free. */
  lemma InitialPrefix(specs: seq<LatentSpec>, k: nat)
    requires DistinctNames(specs) && k < |specs|
    ensures Initial(specs[..k]).Valid() && specs[k].name !in Initial(specs[..k]).ids
  {
    var front := specs[..k];
    InitialConforms(front);
    forall j | 0 <= j < k
      ensures Initial(front).ids[j] != specs[k].name
    {
      assert front[j] == specs[j];
    }
  }

  lemma FreshMatches(spec: LatentSpec)
    ensures Matches(Fresh(spec), spec)
  {
    assert Full(spec.shape, 0.0).HasShape(spec.shape) && Full(spec.shape, -5.0).HasShape(spec.shape);
  }

  /** Replacing one conforming latent by another that still matches its spec keeps the registry conforming. */
  lemma ConformsUpdate(r: Registry, specs: seq<LatentSpec>, k: nat, l: Latent)
    requires Conforms(r, specs) && k < |specs| && Matches(l, specs[k])
    ensures Conforms(Registry(r.ids, r.table[specs[k].name := l]), specs)
  {
    var r' := Registry(r.ids, r.table[specs[k].name := l]);
    assert specs[k].name in r.ids by { assert r.ids[k] == specs[k].name; }
    forall i | 0 <= i < |specs|
      ensures specs[i].name in r'.table && Matches(r'.table[specs[i].name], specs[i])
    {
      if specs[i].name == specs[k].name {
        assert r.ids[i] == r.ids[k];
      }
    }
  }

  /** The mismatch check as written never produces the intended ValueError: a 1-D baseline has no `shape[1]`. */
  lemma BaselineCheckAsWrittenRaisesIndexError(b: seq<real>, G: nat)
    requires |b| != G
    ensures CheckBaselineAsWritten(b, G) == Fail(TupleIndexOutOfRange)
  {
  }

  /** A one-gene baseline for a two-gene model raises IndexError as written and ValueError(1, 2) as intended. */
  lemma BaselineMismatchExample()
    ensures CheckBaselineAsWritten([1.0], 2) == Fail(TupleIndexOutOfRange)
    ensures CheckBaseline([1.0], 2) == Fail(BaselineMismatch(1, 2))
  {
  }

  /** The corrected check passes exactly when the lengths agree, and otherwise reports both lengths. */
  lemma CheckBaselineSpec(b: seq<real>, G: nat)
    ensures CheckBaseline(b, G) == Pass <==> |b| == G
    ensures CheckBaseline(b, G).Fail? ==>
      CheckBaseline(b, G).error.given == |b| && CheckBaseline(b, G).error.expected == G
      && CheckBaseline(b, G).error.given != CheckBaseline(b, G).error.expected
  {
  }

  /** Subtracting c from every entry subtracts |xs| * c from the sum. */
  lemma {:induction false} SumDeviations(xs: seq<real>, c: real)
    ensures Sum(Deviations(xs, c)) == Sum(xs) - (|xs| as real) * c
  {
    if xs != [] {
      assert Deviations(xs, c)[1..] == Deviations(xs[1..], c);
      SumDeviations(xs[1..], c);
    }
  }

  /**
   * The seeded means split log b: the global mean plus each gene's
   * deviation gives back log b[g], and the deviations sum to zero.
   */
  lemma BaselineSplit(b: seq<real>, log: real -> real)
    requires |b| > 0
    ensures var lgb := LogBaseline(b, log);
      var m := Mean(lgb);
      && (forall g :: 0 <= g < |b| ==> m + Deviations(lgb, m)[g] == log(b[g]))
      && Sum(Deviations(lgb, m)) == 0.0
  {
    var lgb := LogBaseline(b, log);
    SumDeviations(lgb, Mean(lgb));
  }

  /**
   * With the seeded means as values and zero factor and interaction terms,
   * rate_gt gives back the baseline b[g] for every factor, provided exp
   * inverts log on positive reals.
   */
  lemma BaselineRateGt(b: seq<real>, F: nat, l: real, lg: seq<real>, log: real -> real, exp: real -> real)
    requires |b| > 0 && |lg| == |b|
    requires forall g :: 0 <= g < |b| ==> b[g] > 0.0
    requires forall y: real :: y > 0.0 ==> exp(log(y)) == y
    ensures var lgb := LogBaseline(b, log);
      var m := Mean(lgb);
      var t := Terms(m, Deviations(lgb, m), Constant(F, 0.0), seq(|b|, _ => Constant(F, 0.0)), l, lg);
      t.Valid() && forall g, f :: 0 <= g < |b| && 0 <= f < F ==> RateGt(t, exp)[g][f] == b[g]
  {
    var lgb := LogBaseline(b, log);
    var m := Mean(lgb);
    var t := Terms(m, Deviations(lgb, m), Constant(F, 0.0), seq(|b|, _ => Constant(F, 0.0)), l, lg);
    forall g, f | 0 <= g < |b| && 0 <= f < F
      ensures RateGt(t, exp)[g][f] == b[g]
    {
      assert t.r + t.rg[g] + t.rt[f] + t.rgt[g][f] == log(b[g]);
    }
  }

  /** Entry (s, g) of `x @ rate_gt.t()` is the design row s weighted by gene g's rates. */
  lemma RateEntries(x: Matrix, t: Terms, exp: real -> real, s: nat, g: nat)
    requires t.Valid() && IsMatrix(x, |x|, |t.rt|) && s < |x| && g < |t.rg|
    ensures MatMul(x, Transpose(RateGt(t, exp), |t.rt|), |t.rg|)[s][g] == Dot(x[s], RateGt(t, exp)[g])
  {
    TransposeColumn(RateGt(t, exp), |t.rt|, g);
  }

  /** Without effects, `forward` yields an S x G rate with rate[s, g] = x[s] . rate_gt[g] and one logit row l + lg broadcast over the spots. */
  lemma EmitPlainSpec(x: Matrix, t: Terms, exp: real -> real, s: nat, g: nat)
    requires t.Valid() && IsMatrix(x, |x|, |t.rt|)
    requires s < |x| && g < |t.rg|
    ensures var nb := Emit(x, None, t, exp);
      && nb.totalCount[s][g] == Dot(x[s], RateGt(t, exp)[g])
      && nb.LogitAt(s, g) == t.l + t.lg[g]
  {
    RateEntries(x, t, exp, s, g);
  }

  /**
   * With effects, the rate is additionally scaled by exp of the rate effect
   * term E[s] . (reff + rgeff[:, g]), where a single effects row applies to
   * every spot.
   */
  lemma EmitEffectsRate(x: Matrix, E: Matrix, e: EffectTerms, t: Terms, exp: real -> real, s: nat, g: nat)
    requires t.Valid() && IsMatrix(x, |x|, |t.rt|)
    requires EffectsShape(E, |x|, |e.reff|) && EffectsFit(e, |e.reff|, |t.rg|)
    requires s < |x| && g < |t.rg|
    ensures Emit(x, Some((E, e)), t, exp).totalCount[s][g]
         == Dot(x[s], RateGt(t, exp)[g]) * exp(Dot(E[EffectRow(E, s)], Column(AddToRows(e.reff, e.rgeff), g)))
  {
    RateEntries(x, t, exp, s, g);
  }

  /**
   * With effects, the logits have one row per effects row, offset by the
   * logit effect term E[s] . (leff + lgeff[:, g]); a single row is broadcast
   * over the spots.
   */
  lemma EmitEffectsLogit(x: Matrix, E: Matrix, e: EffectTerms, t: Terms, exp: real -> real, s: nat, g: nat)
    requires t.Valid() && IsMatrix(x, |x|, |t.rt|)
    requires EffectsShape(E, |x|, |e.reff|) && EffectsFit(e, |e.reff|, |t.rg|)
    requires s < |x| && g < |t.rg|
    ensures Emit(x, Some((E, e)), t, exp).LogitAt(s, g)
         == t.l + t.lg[g] + Dot(E[EffectRow(E, s)], Column(AddToRows(e.leff, e.lgeff), g))
  {
    var nb := Emit(x, Some((E, e)), t, exp);
    var i := EffectRow(E, s);
    var logitEffect := MatMul(E, AddToRows(e.leff, e.lgeff), |t.rg|);
    assert nb.logits[i][g] == Logit(t)[g] + logitEffect[i][g];
    assert nb.LogitAt(s, g) == nb.logits[i][g];
  }

  /**
   * Broadcasting one effects row over the spots gives the same rate and
   * logit as passing that row once for every spot.
   */
  lemma SharedRowBroadcasts(x: Matrix, row: seq<real>, e: EffectTerms, t: Terms, exp: real -> real, s: nat, g: nat)
    requires t.Valid() && IsMatrix(x, |x|, |t.rt|)
    requires |row| == |e.reff| && EffectsFit(e, |e.reff|, |t.rg|)
    requires s < |x| && g < |t.rg|
    ensures var rows := seq(|x|, _ => row);
      && Emit(x, Some(([row], e)), t, exp).totalCount[s][g] == Emit(x, Some((rows, e)), t, exp).totalCount[s][g]
      && Emit(x, Some(([row], e)), t, exp).LogitAt(s, g) == Emit(x, Some((rows, e)), t, exp).LogitAt(s, g)
  {
    var rows := seq(|x|, _ => row);
    assert rows[EffectRow(rows, s)] == row;
    assert [row][EffectRow([row], s)] == row;
    EmitEffectsRate(x, [row], e, t, exp, s, g);
    EmitEffectsRate(x, rows, e, t, exp, s, g);
    EmitEffectsLogit(x, [row], e, t, exp, s, g);
    EmitEffectsLogit(x, rows, e, t, exp, s, g);
  }

  /**
   * An all-zero effects matrix contributes nothing: the rate and the logits
   * equal those of `forward` without effects, provided exp(0) = 1.
   */
  lemma ZeroEffectsNeutral(x: Matrix, E: Matrix, e: EffectTerms, t: Terms, exp: real -> real, s: nat, g: nat)
    requires t.Valid() && IsMatrix(x, |x|, |t.rt|)
    requires EffectsShape(E, |x|, |e.reff|) && EffectsFit(e, |e.reff|, |t.rg|)
    requires forall i, j :: 0 <= i < |E| && 0 <= j < |E[i]| ==> E[i][j] == 0.0
    requires exp(0.0) == 1.0
    requires s < |x| && g < |t.rg|
    ensures Emit(x, Some((E, e)), t, exp).totalCount[s][g] == Emit(x, None, t, exp).totalCount[s][g]
    ensures Emit(x, Some((E, e)), t, exp).LogitAt(s, g) == Emit(x, None, t, exp).LogitAt(s, g)
  {
    EmitEffectsRate(x, E, e, t, exp, s, g);
    EmitEffectsLogit(x, E, e, t, exp, s, g);
    EmitPlainSpec(x, t, exp, s, g);
    DotZeros(E[EffectRow(E, s)], Column(AddToRows(e.reff, e.rgeff), g));
    DotZeros(E[EffectRow(E, s)], Column(AddToRows(e.leff, e.lgeff), g));
  }

  /**
   * What the rest of the model relies on about the registered latents: r and
   * rg come first, and each latent has the shape `__init__` gives it.
   */
  ghost predicate Layout(specs: seq<LatentSpec>, G: nat, F: nat, covariates: seq<Covariate>) {
    && |specs| == (if |covariates| > 0 then 10 else 6)
    && specs[0].name == "r" && specs[1].name == "rg"
    && specs[0].shape == Dim1(1) && specs[1].shape == Dim1(G)
    && specs[2].shape == Dim1(F) && specs[3].shape == Dim2(G, F)
    && specs[4].shape == Dim1(1) && specs[5].shape == Dim1(G)
    && (|covariates| > 0 ==>
          var n := EffectWidth(covariates);
          && specs[6].shape == Dim1(n) && specs[7].shape == Dim1(n)
          && specs[8].shape == Dim2(n, G) && specs[9].shape == Dim2(n, G))
  }

  /** The schedule of `__init__` has that layout. */
  lemma ScheduleLayout(G: nat, F: nat, covariates: seq<Covariate>)
    ensures Layout(Schedule(G, F, covariates), G, F, covariates)
  {
  }

  /** A registry that conforms to the layout has r and rg with Normal posteriors and priors. */
  lemma ConformsHasBase(r: Registry, specs: seq<LatentSpec>, G: nat, F: nat, covariates: seq<Covariate>)
    requires Conforms(r, specs) && Layout(specs, G, F, covariates)
    ensures HasBase(r)
  {
  }

  /** The last draw of latent `i` of `specs`, which has the shape its spec gives. */
  function DrawnValue(r: Registry, specs: seq<LatentSpec>, i: nat): (t: Tensor)
    requires Drawn(r, specs) && i < |specs|
    ensures t.HasShape(specs[i].shape)
  {
    r.table[specs[i].name].variable.value.value
  }

  /** The values `forward` reads from r, rg, rt, rgt, l and lg. */
  function TermsOf(r: Registry, specs: seq<LatentSpec>, G: nat, F: nat, covariates: seq<Covariate>): (t: Terms)
    requires Drawn(r, specs) && Layout(specs, G, F, covariates)
    ensures t.Valid() && |t.rg| == G && |t.rt| == F
  {
    Terms(DrawnValue(r, specs, 0).v[0], DrawnValue(r, specs, 1).v, DrawnValue(r, specs, 2).v,
          DrawnValue(r, specs, 3).m, DrawnValue(r, specs, 4).v[0], DrawnValue(r, specs, 5).v)
  }

  /** The values `forward` reads from reff, leff, rgeff and lgeff. */
  function EffectTermsOf(r: Registry, specs: seq<LatentSpec>, G: nat, F: nat, covariates: seq<Covariate>): (e: EffectTerms)
    requires |covariates| > 0 && Drawn(r, specs) && Layout(specs, G, F, covariates)
    ensures EffectsFit(e, EffectWidth(covariates), G)
  {
    EffectTerms(DrawnValue(r, specs, 6).v, DrawnValue(r, specs, 7).v, DrawnValue(r, specs, 8).m, DrawnValue(r, specs, 9).m)
  }

  /**
   * The values `forward` computes with are the draws themselves: r, rg, rt,
   * rgt, l and lg are draws 0 to 5 and, with covariates, reff, leff, rgeff
   * and lgeff are draws 6 to 9.
   */
  lemma DrawnTerms(r: Registry, specs: seq<LatentSpec>, G: nat, F: nat, covariates: seq<Covariate>, draws: seq<Tensor>)
    requires Drawn(r, specs) && Layout(specs, G, F, covariates) && |draws| == |specs|
    requires forall i :: 0 <= i < |draws| ==> DrawnValue(r, specs, i) == draws[i]
    ensures draws[0].HasShape(Dim1(1)) && draws[1].HasShape(Dim1(G)) && draws[2].HasShape(Dim1(F))
    ensures draws[3].HasShape(Dim2(G, F)) && draws[4].HasShape(Dim1(1)) && draws[5].HasShape(Dim1(G))
    ensures TermsOf(r, specs, G, F, covariates)
         == Terms(draws[0].v[0], draws[1].v, draws[2].v, draws[3].m, draws[4].v[0], draws[5].v)
    ensures |covariates| > 0 ==>
      && draws[6].Vec? && draws[7].Vec? && draws[8].Mat? && draws[9].Mat?
      && EffectTermsOf(r, specs, G, F, covariates) == EffectTerms(draws[6].v, draws[7].v, draws[8].m, draws[9].m)
  {
    assert DrawnValue(r, specs, 0) == draws[0] && DrawnValue(r, specs, 1) == draws[1];
    assert DrawnValue(r, specs, 2) == draws[2] && DrawnValue(r, specs, 3) == draws[3];
    assert DrawnValue(r, specs, 4) == draws[4] && DrawnValue(r, specs, 5) == draws[5];
    if |covariates| > 0 {
      assert DrawnValue(r, specs, 6) == draws[6] && DrawnValue(r, specs, 7) == draws[7];
      assert DrawnValue(r, specs, 8) == draws[8] && DrawnValue(r, specs, 9) == draws[9];
    }
  }

  /**
   * When the draws of r and rg are the means `SeedBaseline` stores, and rt
   * and rgt draw zeros, the `rate_gt` that `forward` reads from the drawn
   * registry gives back the baseline b[g] for every factor.
   */
  lemma SeededDrawsGiveBaseline(r: Registry, specs: seq<LatentSpec>, F: nat, covariates: seq<Covariate>,
                                draws: seq<Tensor>, b: seq<real>, log: real -> real, exp: real -> real)
    requires |b| > 0 && Drawn(r, specs) && Layout(specs, |b|, F, covariates) && |draws| == |specs|
    requires forall i :: 0 <= i < |draws| ==> DrawnValue(r, specs, i) == draws[i]
    requires forall g :: 0 <= g < |b| ==> b[g] > 0.0
    requires forall y: real :: y > 0.0 ==> exp(log(y)) == y
    requires var lgb := LogBaseline(b, log);
      && draws[0] == Vec([Mean(lgb)]) && draws[1] == Vec(Deviations(lgb, Mean(lgb)))
      && draws[2] == Vec(Constant(F, 0.0)) && draws[3] == Mat(seq(|b|, _ => Constant(F, 0.0)))
    ensures forall g, f :: 0 <= g < |b| && 0 <= f < F ==> RateGt(TermsOf(r, specs, |b|, F, covariates), exp)[g][f] == b[g]
  {
    DrawnTerms(r, specs, |b|, F, covariates, draws);
    BaselineRateGt(b, F, draws[4].v[0], draws[5].v, log, exp);
  }

  /**
   * What `forward` returns once the latents hold their new values: the
   * negative binomial of `Emit`, without or with the effect terms. Effects
   * given to a model registered without covariates fail on the missing
   * `reff` attribute.
   */
  function ForwardResult(r: Registry, specs: seq<LatentSpec>, G: nat, F: nat, covariates: seq<Covariate>,
                         x: Matrix, effects: Option<Matrix>, exp: real -> real): (res: Result<NegBinomial, StdError>)
    requires Drawn(r, specs) && Layout(specs, G, F, covariates) && IsMatrix(x, |x|, F)
    requires effects.Some? && |covariates| > 0 ==> EffectsShape(effects.value, |x|, EffectWidth(covariates))
    ensures res.Failure? <==> effects.Some? && |covariates| == 0
    ensures res.Failure? ==> res.error == MissingLatent("reff")
    ensures res.Success? ==> IsMatrix(res.value.totalCount, |x|, G)
  {
    var t := TermsOf(r, specs, G, F, covariates);
    if effects.None? then Success(Emit(x, None, t, exp))
    else if |covariates| == 0 then Failure(MissingLatent("reff"))
    else Success(Emit(x, Some((effects.value, EffectTermsOf(r, specs, G, F, covariates))), t, exp))
  }

  /** A latent after `sample()` stored the draw `value`. */
  function Redrawn(l: Latent, value: Tensor): Latent {
    l.(variable := l.variable.(value := Some(value)))
  }

  /**
   * The registry after the first `i` latents, in registration order, stored
   * the draws `draws[0..i]`: exactly those latents changed, and only in
   * their last value.
   */
  function Redraw(r: Registry, draws: seq<Tensor>, i: nat): (r': Registry)
    requires i <= |draws| == |r.ids|
    ensures r'.ids == r.ids
  {
    if i == 0 then r
    else
      var p := Redraw(r, draws, i - 1);
      var id := r.ids[i - 1];
      if id in p.table then Registry(p.ids, p.table[id := Redrawn(p.table[id], draws[i - 1])]) else p
  }

  /** Resampling binds the same ids as before, so it keeps the registry valid. */
  lemma {:induction false} RedrawValid(r: Registry, draws: seq<Tensor>, i: nat)
    requires r.Valid() && i <= |draws| == |r.ids|
    ensures Redraw(r, draws, i).table.Keys == r.table.Keys
    ensures Redraw(r, draws, i).Valid()
  {
    if i > 0 {
      RedrawValid(r, draws, i - 1);
    }
  }

  /** Exactly the first `i` latents changed, each only by storing its own draw. */
  lemma {:induction false} RedrawSpec(r: Registry, draws: seq<Tensor>, i: nat, j: nat)
    requires r.Valid() && i <= |draws| == |r.ids| && j < |r.ids|
    ensures r.ids[j] in Redraw(r, draws, i).table
    ensures Redraw(r, draws, i).table[r.ids[j]] == if j < i then Redrawn(r.table[r.ids[j]], draws[j]) else r.table[r.ids[j]]
  {
    if i > 0 {
      var p := Redraw(r, draws, i - 1);
      var id := r.ids[i - 1];
      var k := r.ids[j];
      RedrawSpec(r, draws, i - 1, i - 1);
      assert Redraw(r, draws, i).table == p.table[id := Redrawn(p.table[id], draws[i - 1])];
      RedrawSpec(r, draws, i - 1, j);
      if j != i - 1 {
        assert k != id by {
          assert r.Valid();
        }
      }
    } else {
      assert r.ids[j] in r.ids;
    }
  }

  /** Drawing every latent once with values of the right shapes leaves the registry conforming, and every latent drawn. */
  lemma RedrawConforms(r: Registry, specs: seq<LatentSpec>, draws: seq<Tensor>)
    requires Conforms(r, specs) && |draws| == |specs|
    requires forall i :: 0 <= i < |draws| ==> draws[i].HasShape(specs[i].shape)
    ensures Drawn(Redraw(r, draws, |draws|), specs)
    ensures forall i :: 0 <= i < |specs| ==> DrawnValue(Redraw(r, draws, |draws|), specs, i) == draws[i]
  {
    var r' := Redraw(r, draws, |draws|);
    RedrawValid(r, draws, |draws|);
    forall i | 0 <= i < |specs|
      ensures specs[i].name in r'.table && Matches(r'.table[specs[i].name], specs[i])
      ensures r'.table[specs[i].name].variable.value == Some(draws[i])
    {
      assert r.ids[i] == specs[i].name;
      RedrawSpec(r, draws, |draws|, i);
    }
  }

  /** Seeding the baseline keeps a conforming registry conforming. */
  lemma BaselineConforms(r: Registry, specs: seq<LatentSpec>, G: nat, F: nat, covariates: seq<Covariate>, b: seq<real>, log: real -> real)
    requires Conforms(r, specs) && Layout(specs, G, F, covariates) && |b| == G
    ensures HasBase(r) && Conforms(WithBaseline(r, b, log), specs)
  {
    var lgb := LogBaseline(b, log);
    var m := Mean(lgb);
    var l0' := Seeded(r.table["r"], Vec([m]));
    var l1' := Seeded(r.table["rg"], Vec(Deviations(lgb, m)));
    ConformsUpdate(r, specs, 0, l0');
    ConformsUpdate(Registry(r.ids, r.table["r" := l0']), specs, 1, l1');
  }

  // ------------------------------------------------------------ the class

  /** `STD`: its constructor arguments and its latent registry (the `Variational` base part). */
  class STD {
    const genes: seq<string>
    const numFactors: nat
    const covariates: seq<Covariate>
    const latents: Variational

    /** The latents the constructor registered, in order; fixed from then on. */
    const specs: seq<LatentSpec>

    /** The registered latents are those of `Schedule`. */
    ghost predicate Scheduled()
      reads this
    {
      specs == Schedule(|genes|, numFactors, covariates)
    }

    ghost predicate Valid()
      reads this, latents
    {
      Conforms(latents.State(), specs) && Layout(specs, |genes|, numFactors, covariates)
    }

    /** The registration half of `__init__` (network.py:232-268). */
    constructor Init(genes: seq<string>, numFactors: nat, covariates: Option<seq<Covariate>>)
      ensures Valid() && Scheduled() && fresh(latents)
      ensures this.genes == genes && this.numFactors == numFactors
      ensures this.covariates == StoredCovariates(covariates)
      ensures latents.State() == Initial(specs)
    {
      this.genes := genes;
      this.numFactors := numFactors;
      var stored := StoredCovariates(covariates);
      this.covariates := stored;
      specs := Schedule(|genes|, numFactors, stored);
      latents := new Variational();
      new;
      var G := |genes|;
      ScheduleDistinct(G, numFactors, stored);
      // The six base calls, then the four effect calls when covariates are stored, in `Schedule` order.
      for k := 0 to |specs|
        invariant latents.State() == Initial(specs[..k])
      {
        MakeCovariate(specs[k].name, specs[k].shape, specs[k].learnPrior, k);
      }
      assert specs[..|specs|] == specs;
      InitialConforms(specs);
      ScheduleLayout(G, numFactors, stored);
    }

    /**
     * `_make_covariate(name, shape, learn_prior)`: registers a fresh global
     * latent, the `k`-th of the schedule; its name is not yet taken, so the
     * registration goes through.
     */
    method MakeCovariate(name: string, shape: Shape, learnPrior: bool, ghost k: nat)
      requires k < |specs| && specs[k] == LatentSpec(name, shape, learnPrior) && DistinctNames(specs)
      requires latents.State() == Initial(specs[..k])
      modifies latents
      ensures latents.State() == Initial(specs[..k + 1])
    {
      var spec := LatentSpec(name, shape, learnPrior);
      InitialPrefix(specs, k);
      var registered := latents.RegisterLatent(Fresh(spec).variable, Fresh(spec).prior, name, true);
      assert specs[..k + 1][..k] == specs[..k];
    }

    /** `STD(genes, num_factors, gene_baseline, covariates)`: registration, then the baseline check and seeding. */
    static method Create(genes: seq<string>, numFactors: nat := 50, geneBaseline: Option<seq<real>> := None,
                         covariates: Option<seq<Covariate>> := None, log: real -> real)
      returns (res: Result<STD, StdError>)
      ensures res.Failure? <==> geneBaseline.Some? && |geneBaseline.value| != |genes|
      ensures res.Failure? ==> res.error == BaselineMismatch(|geneBaseline.value|, |genes|)
      ensures res.Success? ==>
        var std := res.value;
        && fresh(std) && fresh(std.latents) && std.Valid() && std.Scheduled()
        && std.genes == genes && std.numFactors == numFactors
        && std.covariates == StoredCovariates(covariates)
        && HasBase(Initial(std.specs))
        && (geneBaseline.None? ==> std.latents.State() == Initial(std.specs))
        && (geneBaseline.Some? ==> std.latents.State() == WithBaseline(Initial(std.specs), geneBaseline.value, log))
    {
      var std := new STD.Init(genes, numFactors, covariates);
      ConformsHasBase(std.latents.State(), std.specs, |genes|, numFactors, std.covariates);
      if geneBaseline.Some? {
        var check := CheckBaseline(geneBaseline.value, |genes|);
        if check.Fail? {
          return Failure(check.error);
        }
        std.SeedBaseline(geneBaseline.value, log);
      }
      return Success(std);
    }

    /** Overwrites the posterior and prior means of r and rg with the split log baseline (network.py:276-281). */
    method SeedBaseline(b: seq<real>, log: real -> real)
      requires Valid() && |b| == |genes|
      modifies latents
      ensures HasBase(old(latents.State()))
      ensures latents.State() == WithBaseline(old(latents.State()), b, log)
      ensures Valid()
    {
      BaselineConforms(latents.State(), specs, |genes|, numFactors, covariates, b, log);
      var lgb := LogBaseline(b, log);
      var m := Mean(lgb);
      latents.Replace("r", Seeded(latents.table["r"], Vec([m])));
      latents.Replace("rg", Seeded(latents.table["rg"], Vec(Deviations(lgb, m))));
    }

    /** `resample()`: every registered latent draws once, in registration order; `draws` is the sampler's output. */
    method Resample(draws: seq<Tensor>)
      requires Valid() && |draws| == |latents.ids|
      requires forall i :: 0 <= i < |draws| ==> draws[i].HasShape(specs[i].shape)
      modifies latents
      ensures old(latents.State()).Valid()
      ensures latents.State() == Redraw(old(latents.State()), draws, |draws|)
      ensures Valid() && Drawn(latents.State(), specs)
    {
      ghost var r0 := latents.State();
      var i := 0;
      while i < |latents.ids|
        invariant 0 <= i <= |draws| && latents.State() == Redraw(r0, draws, i)
        invariant latents.Valid()
      {
        var id := latents.ids[i];
        latents.SetVariable(id, Redrawn(latents.table[id], draws[i]).variable);
        i := i + 1;
      }
      RedrawConforms(r0, specs, draws);
    }

    /**
     * `forward(x, effects)` (network.py:301-311): resample every latent, then
     * build the count distribution from the new values. Effects given to a
     * model registered without covariates raise (the `reff` attribute is
     * missing), after the resampling has happened.
     */
    method Forward(x: Matrix, effects: Option<Matrix>, draws: seq<Tensor>, exp: real -> real)
      returns (res: Result<NegBinomial, StdError>)
      requires Valid() && |draws| == |latents.ids|
      requires forall i :: 0 <= i < |draws| ==> draws[i].HasShape(specs[i].shape)
      requires IsMatrix(x, |x|, numFactors)
      requires effects.Some? && |covariates| > 0 ==> EffectsShape(effects.value, |x|, EffectWidth(covariates))
      modifies latents
      ensures Valid() && Drawn(latents.State(), specs)
      ensures forall i :: 0 <= i < |draws| ==> DrawnValue(latents.State(), specs, i) == draws[i]
      ensures res == ForwardResult(latents.State(), specs, |genes|, numFactors, covariates, x, effects, exp)
    {
      ghost var r0 := latents.State();
      Resample(draws);
      RedrawConforms(r0, specs, draws);
      res := ForwardResult(latents.State(), specs, |genes|, numFactors, covariates, x, effects, exp);
    }
  }
}

=== FILE: experiment.dfy ===
/**
 * The tensor bookkeeping of the experiment `ST` (hssl/model/experiment/st.py:89-234):
 * how the model pools per-pixel factor activities into per-spot rates, how
 * covariate effects are combined, how the guide initialises the factor
 * posteriors, and how `encode` spreads per-spot encodings back over the
 * pixels of each spot.
 *
 * Images are row-major `H x W` matrices; `label` images hold spot indices,
 * 0 standing for the background. The expression encoder and `exp` are
 * parameters the model does not interpret.
 */
module Experiment {
  import opened Wrappers
  import opened Tensors
  import opened Factors

  // ------------------------------------------------------- image layout

  /** `img.flatten()` for an image whose rows have `W` entries: the rows one after another. */
  function Flatten<T>(img: seq<seq<T>>, W: nat): (flat: seq<T>)
    requires forall i :: 0 <= i < |img| ==> |img[i]| == W
    ensures |flat| == |img| * W
  {
    if img == [] then [] else img[0] + Flatten(img[1..], W)
  }

  /** `v.reshape(H, W)` for a vector of `H * W` entries. */
  function Unflatten<T>(v: seq<T>, H: nat, W: nat): (img: seq<seq<T>>)
    requires |v| == H * W
    ensures |img| == H && forall i :: 0 <= i < H ==> |img[i]| == W
  {
    if H == 0 then []
    else
      assert H * W == W + (H - 1) * W;
      [v[..W]] + Unflatten(v[W..], H - 1, W)
  }

  /** Pixel (i, j) of an image is entry i * W + j of its flattening. */
  lemma {:induction false} FlattenIndex<T>(img: seq<seq<T>>, W: nat, i: nat, j: nat)
    requires forall k :: 0 <= k < |img| ==> |img[k]| == W
    requires i < |img| && j < W
    ensures i * W + j < |Flatten(img, W)| && Flatten(img, W)[i * W + j] == img[i][j]
  {
    if i > 0 {
      FlattenIndex(img[1..], W, i - 1, j);
      assert i * W + j == W + ((i - 1) * W + j);
    }
  }

  /** Reshaping to `H x W` and flattening again gives the vector back. */
  lemma {:induction false} FlattenUnflatten<T>(v: seq<T>, H: nat, W: nat)
    requires |v| == H * W
    ensures Flatten(Unflatten(v, H, W), W) == v
  {
    if H > 0 {
      assert H * W == W + (H - 1) * W;
      FlattenUnflatten(v[W..], H - 1, W);
      var img := Unflatten(v, H, W);
      assert img[1..] == Unflatten(v[W..], H - 1, W);
      assert v == v[..W] + v[W..];
    }
  }

  /** Flattening an image and reshaping it to its own size gives the image back. */
  lemma {:induction false} UnflattenFlatten<T>(img: seq<seq<T>>, W: nat)
    requires forall i :: 0 <= i < |img| ==> |img[i]| == W
    ensures Unflatten(Flatten(img, W), |img|, W) == img
  {
    if img != [] {
      var flat := Flatten(img, W);
      assert flat == img[0] + Flatten(img[1..], W);
      assert flat[..W] == img[0] && flat[W..] == Flatten(img[1..], W);
      UnflattenFlatten(img[1..], W);
      assert img == [img[0]] + img[1..];
    }
  }

  /** Entry (i, j) of `v.reshape(H, W)` is `v[i * W + j]`. */
  lemma UnflattenIndex<T>(v: seq<T>, H: nat, W: nat, i: nat, j: nat)
    requires |v| == H * W && i < H && j < W
    ensures i * W + j < |v| && Unflatten(v, H, W)[i][j] == v[i * W + j]
  {
    var img := Unflatten(v, H, W);
    FlattenUnflatten(v, H, W);
    FlattenIndex(img, W, i, j);
  }

  /** `rim.permute(1, 2, 0).view(-1, M)`: one row per pixel, holding its M channel values. */
  function PixelRows(rim: seq<Matrix>, H: nat, W: nat): (pix: Matrix)
    requires forall m :: 0 <= m < |rim| ==> IsMatrix(rim[m], H, W)
    ensures IsMatrix(pix, H * W, |rim|)
  {
    var channels := seq(|rim|, m requires 0 <= m < |rim| => assert IsMatrix(rim[m], H, W); Flatten(rim[m], W));
    assert IsMatrix(channels, |rim|, H * W) by {
      forall m | 0 <= m < |rim|
        ensures |channels[m]| == H * W
      {
        assert IsMatrix(rim[m], H, W);
        assert channels[m] == Flatten(rim[m], W);
      }
    }
    Transpose(channels, H * W)
  }

  /** Row i * W + j of the pixel rows holds channel m of pixel (i, j) in column m. */
  lemma PixelRowsIndex(rim: seq<Matrix>, H: nat, W: nat, i: nat, j: nat, m: nat)
    requires forall k :: 0 <= k < |rim| ==> IsMatrix(rim[k], H, W)
    requires i < H && j < W && m < |rim|
    ensures i * W + j < H * W && PixelRows(rim, H, W)[i * W + j][m] == rim[m][i][j]
  {
    FlattenIndex(rim[m], W, i, j);
  }

  // ------------------------------------------------------- one-hot labels

  /** `sparseonehot(labels, L)`: one row per pixel with a 1 in the column of its label. */
  function OneHot(labels: seq<nat>, L: nat): (oh: Matrix)
    requires forall p :: 0 <= p < |labels| ==> labels[p] < L
    ensures IsMatrix(oh, |labels|, L)
    ensures forall p :: 0 <= p < |labels| ==> oh[p] == Indicator(L, labels[p])
  {
    seq(|labels|, p requires 0 <= p < |labels| => Indicator(L, labels[p]))
  }

  /** The sum of `v` over the pixels whose label is `k`. */
  function LabelSum(labels: seq<nat>, v: seq<real>, k: nat): real
    requires |labels| == |v|
  {
    if labels == [] then 0.0
    else (if labels[0] == k then v[0] else 0.0) + LabelSum(labels[1..], v[1..], k)
  }

  /** Column k of the one-hot matrix marks the pixels labelled k. */
  lemma {:induction false} DotLabelColumn(labels: seq<nat>, L: nat, k: nat, v: seq<real>)
    requires forall p :: 0 <= p < |labels| ==> labels[p] < L
    requires k < L && |v| == |labels|
    ensures Dot(Column(OneHot(labels, L), k), v) == LabelSum(labels, v, k)
  {
    if labels != [] {
      var rest := labels[1..];
      assert Column(OneHot(labels, L), k)[1..] == Column(OneHot(rest, L), k);
      DotLabelColumn(rest, L, k, v[1..]);
    }
  }

  // ------------------------------------------------------------- pooling

  /** `labelonehot.t() @ pixel_rows`: per label and channel, the summed channel values of its pixels. */
  function Pool(labels: seq<nat>, L: nat, pix: Matrix, M: nat): (pooled: Matrix)
    requires forall p :: 0 <= p < |labels| ==> labels[p] < L
    requires IsMatrix(pix, |labels|, M)
    ensures IsMatrix(pooled, L, M)
  {
    MatMul(Transpose(OneHot(labels, L), L), pix, M)
  }

  /** Entry (k, m) of the pooled matrix is channel m summed over the pixels labelled k. */
  lemma PoolSpec(labels: seq<nat>, L: nat, pix: Matrix, M: nat, k: nat, m: nat)
    requires forall p :: 0 <= p < |labels| ==> labels[p] < L
    requires IsMatrix(pix, |labels|, M) && k < L && m < M
    ensures Pool(labels, L, pix, M)[k][m] == LabelSum(labels, Column(pix, m), k)
  {
    var oh := OneHot(labels, L);
    assert Transpose(oh, L)[k] == Column(oh, k);
    DotLabelColumn(labels, L, k, Column(pix, m));
  }

  /** The rates and logits one sample contributes to the count distribution. */
  datatype SampleParams = SampleParams(rates: Matrix, logits: Matrix)

  /**
   * `_compute_sample_params(label, rim, rmg, lg)`: pool the M factor
   * activities of every spot (labels 1 .. L-1; row 0, the background, is
   * dropped), weight them with the exponentiated factor profiles, and repeat
   * the logits once per spot.
   */
  function ComputeSampleParams(spots: seq<seq<nat>>, W: nat, L: nat, rim: seq<Matrix>, rmg: Matrix, G: nat,
                               lg: seq<real>, exp: real -> real): (sp: SampleParams)
    requires forall i :: 0 <= i < |spots| ==> |spots[i]| == W
    requires forall i, j :: 0 <= i < |spots| && 0 <= j < W ==> spots[i][j] < L
    requires 1 <= L
    requires forall m :: 0 <= m < |rim| ==> IsMatrix(rim[m], |spots|, W)
    requires IsMatrix(rmg, |rim|, G) && |lg| == G
    ensures IsMatrix(sp.rates, L - 1, G) && IsMatrix(sp.logits, L - 1, G)
  {
    var labels := Flatten<nat>(spots, W);
    assert forall p :: 0 <= p < |labels| ==> labels[p] < L by {
      forall p | 0 <= p < |labels|
        ensures labels[p] < L
      {
        FlattenedBelow(spots, W, L, p);
      }
    }
    var pooled := Pool(labels, L, PixelRows(rim, |spots|, W), |rim|);
    var rates := MatMul(pooled[1..], MapExp(rmg, exp), G);
    SampleParams(rates, seq(L - 1, _ => lg))
  }

  lemma {:induction false} FlattenedBelow(spots: seq<seq<nat>>, W: nat, L: nat, p: nat)
    requires forall i :: 0 <= i < |spots| ==> |spots[i]| == W
    requires forall i, j :: 0 <= i < |spots| && 0 <= j < W ==> spots[i][j] < L
    requires p < |spots| * W
    ensures Flatten<nat>(spots, W)[p] < L
  {
    if p >= W {
      assert |spots| * W == W + (|spots| - 1) * W;
      FlattenedBelow(spots[1..], W, L, p - W);
    }
  }

  /**
   * Spot i of a sample (label i + 1) gets rate
   * sum over m of pooled[i + 1][m] * exp(rmg[m][g]), where pooled[i + 1][m]
   * sums channel m over the pixels of that spot; its logits are `lg`.
   */
  lemma ComputeSampleParamsSpec(spots: seq<seq<nat>>, W: nat, L: nat, rim: seq<Matrix>, rmg: Matrix, G: nat,
                                lg: seq<real>, exp: real -> real, i: nat, g: nat)
    requires forall k :: 0 <= k < |spots| ==> |spots[k]| == W
    requires forall a, b :: 0 <= a < |spots| && 0 <= b < W ==> spots[a][b] < L
    requires 1 <= L
    requires forall m :: 0 <= m < |rim| ==> IsMatrix(rim[m], |spots|, W)
    requires IsMatrix(rmg, |rim|, G) && |lg| == G
    requires i < L - 1 && g < G
    ensures var sp := ComputeSampleParams(spots, W, L, rim, rmg, G, lg, exp);
      var labels := Flatten<nat>(spots, W);
      var pix := PixelRows(rim, |spots|, W);
      && sp.logits[i] == lg
      && sp.rates[i][g] == Dot(seq(|rim|, m requires 0 <= m < |rim| => LabelSum(labels, Column(pix, m), i + 1)),
                               Column(MapExp(rmg, exp), g))
  {
    var labels := Flatten<nat>(spots, W);
    forall p | 0 <= p < |labels|
      ensures labels[p] < L
    {
      FlattenedBelow(spots, W, L, p);
    }
    var pix := PixelRows(rim, |spots|, W);
    var pooled := Pool(labels, L, pix, |rim|);
    forall m | 0 <= m < |rim|
      ensures pooled[i + 1][m] == LabelSum(labels, Column(pix, m), i + 1)
    {
      PoolSpec(labels, L, pix, |rim|, i + 1, m);
    }
    assert pooled[1..][i] == seq(|rim|, m requires 0 <= m < |rim| => LabelSum(labels, Column(pix, m), i + 1));
  }

  /** A spot whose label no pixel carries gets rate zero for every gene. */
  lemma EmptySpotHasZeroRate(spots: seq<seq<nat>>, W: nat, L: nat, rim: seq<Matrix>, rmg: Matrix, G: nat,
                             lg: seq<real>, exp: real -> real, i: nat, g: nat)
    requires forall k :: 0 <= k < |spots| ==> |spots[k]| == W
    requires forall a, b :: 0 <= a < |spots| && 0 <= b < W ==> spots[a][b] < L
    requires 1 <= L
    requires forall m :: 0 <= m < |rim| ==> IsMatrix(rim[m], |spots|, W)
    requires IsMatrix(rmg, |rim|, G) && |lg| == G
    requires i < L - 1 && g < G
    requires forall a, b :: 0 <= a < |spots| && 0 <= b < W ==> spots[a][b] != i + 1
    ensures ComputeSampleParams(spots, W, L, rim, rmg, G, lg, exp).rates[i][g] == 0.0
  {
    ComputeSampleParamsSpec(spots, W, L, rim, rmg, G, lg, exp, i, g);
    var labels := Flatten<nat>(spots, W);
    var pix := PixelRows(rim, |spots|, W);
    forall p | 0 <= p < |labels|
      ensures labels[p] != i + 1
    {
      FlattenedDiffers(spots, W, i + 1, p);
    }
    var sums := seq(|rim|, m requires 0 <= m < |rim| => LabelSum(labels, Column(pix, m), i + 1));
    forall m | 0 <= m < |rim|
      ensures sums[m] == 0.0
    {
      LabelSumAbsent(labels, Column(pix, m), i + 1);
    }
    DotZeros(sums, Column(MapExp(rmg, exp), g));
  }

  lemma {:induction false} FlattenedDiffers(spots: seq<seq<nat>>, W: nat, k: nat, p: nat)
    requires forall i :: 0 <= i < |spots| ==> |spots[i]| == W
    requires forall a, b :: 0 <= a < |spots| && 0 <= b < W ==> spots[a][b] != k
    requires p < |spots| * W
    ensures Flatten<nat>(spots, W)[p] != k
  {
    if p >= W {
      assert |spots| * W == W + (|spots| - 1) * W;
      FlattenedDiffers(spots[1..], W, k, p - W);
    }
  }

  /** The sum over a label that no pixel carries is zero. */
  lemma {:induction false} LabelSumAbsent(labels: seq<nat>, v: seq<real>, k: nat)
    requires |labels| == |v| && forall p :: 0 <= p < |labels| ==> labels[p] != k
    ensures LabelSum(labels, v, k) == 0.0
  {
    if labels != [] {
      LabelSumAbsent(labels[1..], v[1..], k);
    }
  }

  // --------------------------------------------------------------- batch

  /** `t.cat(xs)` along the first dimension: the rows of every sample, one sample after another. */
  function Concat<T>(xs: seq<seq<T>>): (rows: seq<T>)
    ensures |rows| == Offset(xs, |xs|)
  {
    if xs == [] then [] else xs[0] + Concat(xs[1..])
  }

  /** The number of rows of the samples before sample b. */
  function Offset<T>(xs: seq<seq<T>>, b: nat): nat
    requires b <= |xs|
  {
    if b == 0 then 0 else |xs[0]| + Offset(xs[1..], b - 1)
  }

  /** Row i of sample b sits at row `Offset(xs, b) + i` of the concatenation. */
  lemma {:induction false} ConcatIndex<T>(xs: seq<seq<T>>, b: nat, i: nat)
    requires b < |xs| && i < |xs[b]|
    ensures Offset(xs, b) + i < |Concat(xs)| && Concat(xs)[Offset(xs, b) + i] == xs[b][i]
  {
    if b > 0 {
      ConcatIndex(xs[1..], b - 1, i);
      OffsetBound(xs[1..], b - 1);
    }
  }

  lemma {:induction false} OffsetBound<T>(xs: seq<seq<T>>, b: nat)
    requires b < |xs|
    ensures Offset(xs, b) + |xs[b]| <= Offset(xs, |xs|)
  {
    if b > 0 {
      OffsetBound(xs[1..], b - 1);
    }
  }

  /** Two batches whose samples have equally many rows place every sample at the same offset. */
  lemma {:induction false} OffsetsAgree<T, U>(xs: seq<seq<T>>, ys: seq<seq<U>>, b: nat)
    requires |xs| == |ys| && b <= |xs|
    requires forall k :: 0 <= k < |xs| ==> |xs[k]| == |ys[k]|
    ensures Offset(xs, b) == Offset(ys, b)
  {
    if b > 0 {
      OffsetsAgree(xs[1..], ys[1..], b - 1);
    }
  }

  /**
   * The count distribution of a batch takes `t.cat(rgs)` and `t.cat(lg)` as
   * parameters and `t.cat(x['data'])` as observation. When every sample has
   * one spot row per label 1 .. L-1, row r of the observed counts is spot i of
   * sample b exactly where row r of the rates and logits is that spot's.
   */
  lemma BatchRowsAlign(params: seq<SampleParams>, data: seq<Matrix>, b: nat, i: nat)
    requires |params| == |data|
    requires forall k :: 0 <= k < |data| ==> |params[k].rates| == |data[k]| && |params[k].logits| == |data[k]|
    requires b < |data| && i < |data[b]|
    ensures var rates := Concat(seq(|params|, k requires 0 <= k < |params| => params[k].rates));
      var logits := Concat(seq(|params|, k requires 0 <= k < |params| => params[k].logits));
      var r := Offset(data, b) + i;
      && |rates| == |Concat(data)| && |logits| == |Concat(data)|
      && r < |Concat(data)| && Concat(data)[r] == data[b][i]
      && rates[r] == params[b].rates[i] && logits[r] == params[b].logits[i]
  {
    var rs := seq(|params|, k requires 0 <= k < |params| => params[k].rates);
    var ls := seq(|params|, k requires 0 <= k < |params| => params[k].logits);
    OffsetsAgree(rs, data, b);
    OffsetsAgree(ls, data, b);
    OffsetsAgree(rs, data, |data|);
    OffsetsAgree(ls, data, |data|);
    ConcatIndex(data, b, i);
    ConcatIndex(rs, b, i);
    ConcatIndex(ls, b, i);
  }

  // ------------------------------------------------------------- effects

  /** The covariate terms of a batch: per-sample gene offsets to the factor profiles and per-sample logits. */
  datatype EffectParams = EffectParams(rmg: seq<Matrix>, lg: Matrix)

  /**
   * `rg = effects @ rgeff`, `lg = effects @ lgeff`, `rmg = rg[:, None] + rmg`:
   * every factor profile of sample b is shifted by that sample's gene effect.
   */
  function CombineEffects(E: Matrix, C: nat, rgeff: Matrix, lgeff: Matrix, rmg: Matrix, G: nat): (ep: EffectParams)
    requires IsMatrix(E, |E|, C) && IsMatrix(rgeff, C, G) && IsMatrix(lgeff, C, G)
    requires forall m :: 0 <= m < |rmg| ==> |rmg[m]| == G
    ensures |ep.rmg| == |E| && forall b :: 0 <= b < |E| ==> IsMatrix(ep.rmg[b], |rmg|, G)
    ensures IsMatrix(ep.lg, |E|, G)
  {
    var rg := MatMul(E, rgeff, G);
    EffectParams(
      seq(|E|, b requires 0 <= b < |E| =>
        seq(|rmg|, m requires 0 <= m < |rmg| => seq(G, g requires 0 <= g < G => rg[b][g] + rmg[m][g]))),
      MatMul(E, lgeff, G))
  }

  /**
   * Entry (b, m, g) of the shifted profiles is rmg[m][g] plus sample b's
   * covariates weighted by rgeff's column g; the logits are its covariates
   * weighted by lgeff's column g.
   */
  lemma CombineEffectsSpec(E: Matrix, C: nat, rgeff: Matrix, lgeff: Matrix, rmg: Matrix, G: nat, b: nat, m: nat, g: nat)
    requires IsMatrix(E, |E|, C) && IsMatrix(rgeff, C, G) && IsMatrix(lgeff, C, G)
    requires forall k :: 0 <= k < |rmg| ==> |rmg[k]| == G
    requires b < |E| && m < |rmg| && g < G
    ensures var ep := CombineEffects(E, C, rgeff, lgeff, rmg, G);
      && ep.rmg[b][m][g] == Dot(E[b], Column(rgeff, g)) + rmg[m][g]
      && ep.lg[b][g] == Dot(E[b], Column(lgeff, g))
  {
  }

  /** Samples without covariate effects (an all-zero row) keep the shared profiles and get zero logits. */
  lemma NoEffectsKeepProfiles(E: Matrix, C: nat, rgeff: Matrix, lgeff: Matrix, rmg: Matrix, G: nat, b: nat)
    requires IsMatrix(E, |E|, C) && IsMatrix(rgeff, C, G) && IsMatrix(lgeff, C, G)
    requires IsMatrix(rmg, |rmg|, G)
    requires b < |E| && forall c :: 0 <= c < C ==> E[b][c] == 0.0
    ensures var ep := CombineEffects(E, C, rgeff, lgeff, rmg, G);
      ep.rmg[b] == rmg && ep.lg[b] == Constant(G, 0.0)
  {
    var ep := CombineEffects(E, C, rgeff, lgeff, rmg, G);
    forall m, g | 0 <= m < |rmg| && 0 <= g < G
      ensures ep.rmg[b][m][g] == rmg[m][g]
    {
      DotZeros(E[b], Column(rgeff, g));
    }
    forall m | 0 <= m < |rmg|
      ensures ep.rmg[b][m] == rmg[m]
    {
      assert |ep.rmg[b][m]| == |rmg[m]|;
    }
    forall g | 0 <= g < G
      ensures ep.lg[b][g] == 0.0
    {
      DotZeros(E[b], Column(lgeff, g));
    }
    assert |ep.lg[b]| == G;
  }

  // -------------------------------------------------------- factor order

  /**
   * What `model` builds once per active factor, in the iteration order of
   * `self.factors`: the decoder output that becomes a channel of `rim`, and
   * the sampled profile that becomes a row of `rmg`.
   */
  function PerFactor<T>(s: Registry, f: int -> T): (xs: seq<T>)
    ensures |xs| == |s.order|
    ensures forall m :: 0 <= m < |s.order| ==> xs[m] == f(s.order[m])
  {
    seq(|s.order|, m requires 0 <= m < |s.order| => f(s.order[m]))
  }

  /** Removing an entry at position k of a duplicate-free list cuts out exactly that position. */
  lemma {:induction false} WithoutAt(xs: seq<int>, k: nat)
    requires Distinct(xs) && k < |xs|
    ensures Without(xs, xs[k]) == xs[..k] + xs[k + 1..]
  {
    if k == 0 {
      WithoutAbsent(xs[1..], xs[0]);
      assert xs[0] !in xs[1..] by {
        forall j | 0 <= j < |xs[1..]|
          ensures xs[1..][j] != xs[0]
        {
          assert xs[1..][j] == xs[j + 1];
        }
      }
    } else {
      assert Distinct(xs[1..]) by {
        forall i, j | 0 <= i < j < |xs[1..]|
          ensures xs[1..][i] != xs[1..][j]
        {
          assert xs[1..][i] == xs[i + 1] && xs[1..][j] == xs[j + 1];
        }
      }
      WithoutAt(xs[1..], k - 1);
      assert xs[1..][k - 1] == xs[k];
      assert xs[0] != xs[k];
      assert xs[1..][..k - 1] == xs[1..k] && xs[1..][k..] == xs[k + 1..];
      assert xs[..k] == [xs[0]] + xs[1..k];
    }
  }

  /**
   * `rim` channel m and `rmg` row m come from the same factor, and removing
   * the factor at position k drops exactly its channel and its row, leaving
   * the others in order.
   */
  lemma RemovedFactorDropsItsChannel<T, U>(s: Registry, k: nat, decode: int -> T, profile: int -> U)
    requires Inv(s) && k < |s.order|
    ensures Remove(s, s.order[k]).Success?
    ensures var s' := Remove(s, s.order[k]).value;
      && PerFactor(s', decode) == PerFactor(s, decode)[..k] + PerFactor(s, decode)[k + 1..]
      && PerFactor(s', profile) == PerFactor(s, profile)[..k] + PerFactor(s, profile)[k + 1..]
  {
    var n := s.order[k];
    assert n in s.order;
    RemoveSpec(s, n);
    WithoutAt(s.order, k);
  }

  // ----------------------------------------------------------- the guide

  /** The initial posterior of one factor profile: its mean and its standard deviation. */
  datatype Posterior = Posterior(mu: seq<real>, sd: seq<real>)

  /** The guide's `factor{n}_mu` and `factor{n}_sd`: the default profile (zeros when none), and 0.01 of the same shape. */
  function FactorPosterior(f: Factor, G: nat): (q: Posterior)
    ensures |q.sd| == |q.mu| && forall g :: 0 <= g < |q.sd| ==> q.sd[g] == 0.01
    ensures f.default.Some? ==> q.mu == f.default.value
    ensures f.default.None? ==> q.mu == Constant(G, 0.0)
  {
    var mu := f.default.GetOr(Constant(G, 0.0));
    Posterior(mu, Constant(|mu|, 0.01))
  }

  /** The factor posteriors the guide creates, one per active factor, in the order of `self.factors`. */
  function FactorPosteriors(s: Registry, G: nat): (qs: seq<(int, Posterior)>)
    requires forall i :: 0 <= i < |s.order| ==> s.order[i] in s.table
    ensures |qs| == |s.order|
  {
    seq(|s.order|, i requires 0 <= i < |s.order| => (s.order[i], FactorPosterior(s.table[s.order[i]], G)))
  }

  /**
   * Constructing `ST` with factors given explicitly makes the guide start
   * factor i at its own default profile, or at zeros(G) when it has none.
   */
  lemma InitialPosteriors(factors: seq<Factor>, G: nat, i: nat)
    requires i < |factors|
    ensures Init(factors).Some?
    ensures var s := Init(factors).value;
      && (forall k :: 0 <= k < |s.order| ==> s.order[k] in s.table)
      && |FactorPosteriors(s, G)| == |factors|
      && FactorPosteriors(s, G)[i].0 == i
      && FactorPosteriors(s, G)[i].1.mu == factors[i].default.GetOr(Constant(G, 0.0))
  {
    InitSpec(factors);
  }

  /** The `rgeff` and `lgeff` posteriors: zero means and standard deviation 0.01, both `#covariates x G`. */
  function EffectPosterior(C: nat, G: nat): (q: (Tensor, Tensor))
    ensures q.0.HasShape(Dim2(C, G)) && q.1.HasShape(Dim2(C, G))
    ensures forall c, g :: 0 <= c < C && 0 <= g < G ==> q.0.m[c][g] == 0.0 && q.1.m[c][g] == 0.01
  {
    (Full(Dim2(C, G), 0.0), Full(Dim2(C, G), 0.01))
  }

  // ------------------------------------------------------------ encode

  /**
   * `data_with_missing`: the `N x G` counts padded with a leading zero row
   * and column, whose first row is then replaced by the marker [1, 0, ..., 0].
   */
  function Padded(data: Matrix, G: nat): (padded: Matrix)
    requires IsMatrix(data, |data|, G)
    ensures IsMatrix(padded, |data| + 1, G + 1)
  {
    var zeroPadded := seq(|data| + 1, i requires 0 <= i <= |data| =>
      if i == 0 then Constant(G + 1, 0.0) else [0.0] + data[i - 1]);
    zeroPadded[0 := [1.0] + Constant(G, 0.0)]
  }

  /** Row 0 is the marker of a missing spot, and row i + 1 is spot i's counts behind a 0. */
  lemma PaddedLayout(data: Matrix, G: nat)
    requires IsMatrix(data, |data|, G)
    ensures var padded := Padded(data, G);
      && padded[0][0] == 1.0 && (forall g :: 1 <= g <= G ==> padded[0][g] == 0.0)
      && forall i :: 0 <= i < |data| ==>
           padded[i + 1][0] == 0.0 && padded[i + 1][1..] == data[i]
  {
    var padded := Padded(data, G);
    forall i | 0 <= i < |data|
      ensures padded[i + 1][0] == 0.0 && padded[i + 1][1..] == data[i]
    {
      assert padded[i + 1] == [0.0] + data[i];
    }
  }

  /** `labelonehot @ encoded`: every pixel receives the encoded row of its label. */
  function Scatter(encoded: Matrix, D: nat, labels: seq<nat>): (expanded: Matrix)
    requires IsMatrix(encoded, |encoded|, D)
    requires forall p :: 0 <= p < |labels| ==> labels[p] < |encoded|
    ensures IsMatrix(expanded, |labels|, D)
  {
    MatMul(OneHot(labels, |encoded|), encoded, D)
  }

  lemma ScatterSpec(encoded: Matrix, D: nat, labels: seq<nat>, p: nat)
    requires IsMatrix(encoded, |encoded|, D)
    requires forall q :: 0 <= q < |labels| ==> labels[q] < |encoded|
    requires p < |labels|
    ensures Scatter(encoded, D, labels)[p] == encoded[labels[p]]
  {
    var expanded := Scatter(encoded, D, labels);
    forall d | 0 <= d < D
      ensures expanded[p][d] == encoded[labels[p]][d]
    {
      DotIndicator(|encoded|, labels[p], Column(encoded, d));
    }
  }

  /**
   * `encode(data, label)`: the encoder maps the padded counts to one row of
   * D features per spot (row 0 for the missing marker); the result has D
   * channels of the label image's size.
   */
  function Encode(data: Matrix, G: nat, spots: seq<seq<nat>>, W: nat, encoder: Matrix -> Matrix, D: nat): (out: seq<Matrix>)
    requires IsMatrix(data, |data|, G)
    requires IsMatrix(encoder(Padded(data, G)), |data| + 1, D)
    requires forall i :: 0 <= i < |spots| ==> |spots[i]| == W
    requires forall i, j :: 0 <= i < |spots| && 0 <= j < W ==> spots[i][j] <= |data|
    ensures |out| == D && forall d :: 0 <= d < D ==> IsMatrix(out[d], |spots|, W)
  {
    var encoded := encoder(Padded(data, G));
    var labels := Flatten<nat>(spots, W);
    assert forall p :: 0 <= p < |labels| ==> labels[p] < |encoded| by {
      forall p | 0 <= p < |labels|
        ensures labels[p] < |encoded|
      {
        FlattenedBelow(spots, W, |encoded|, p);
      }
    }
    var expanded := Scatter(encoded, D, labels);
    seq(D, d requires 0 <= d < D => Unflatten(Column(expanded, d), |spots|, W))
  }

  /**
   * Channel d of pixel (i, j) is feature d of the encoded row of the pixel's
   * label; background pixels (label 0) get the features of the missing marker.
   */
  lemma EncodeSpec(data: Matrix, G: nat, spots: seq<seq<nat>>, W: nat, encoder: Matrix -> Matrix, D: nat,
                   d: nat, i: nat, j: nat)
    requires IsMatrix(data, |data|, G)
    requires IsMatrix(encoder(Padded(data, G)), |data| + 1, D)
    requires forall k :: 0 <= k < |spots| ==> |spots[k]| == W
    requires forall a, b :: 0 <= a < |spots| && 0 <= b < W ==> spots[a][b] <= |data|
    requires d < D && i < |spots| && j < W
    ensures Encode(data, G, spots, W, encoder, D)[d][i][j] == encoder(Padded(data, G))[spots[i][j]][d]
    ensures spots[i][j] == 0 ==> Encode(data, G, spots, W, encoder, D)[d][i][j] == encoder(Padded(data, G))[0][d]
  {
    var encoded := encoder(Padded(data, G));
    var labels := Flatten<nat>(spots, W);
    forall p | 0 <= p < |labels|
      ensures labels[p] < |encoded|
    {
      FlattenedBelow(spots, W, |encoded|, p);
    }
    var expanded := Scatter(encoded, D, labels);
    FlattenIndex(spots, W, i, j);
    UnflattenIndex(Column(expanded, d), |spots|, W, i, j);
    ScatterSpec(encoded, D, labels, i * W + j);
  }
}

=== FILE: factors.dfy ===
/**
 * The factor registry of the experiment `ST` (hssl/model/experiment/st.py:25-61):
 * an insertion-ordered dictionary from factor id to (bias, default profile),
 * and an id counter that hands out recycled ids before new ones.
 *
 * The counter starts as `it.count()`; every removal replaces it with
 * `it.chain([n], counter)`, which yields `n` before anything else. It is
 * therefore a stack of recycled ids in front of a running count, which is how
 * `Counter` represents it.
 */
module Factors {
  import opened Wrappers

  /** A factor: the bias its decoder's last layer starts from, and an optional default gene profile. */
  datatype Factor = Factor(bias: real, default: Option<seq<real>>)

  /** What `add_factor()` stores when given no factor: `(0., None)`. */
  const DefaultFactor := Factor(0.0, None)

  /** The id iterator: recycled ids, most recently removed first, then `count, count + 1, ...`. */
  datatype Counter = Counter(pending: seq<int>, count: int)

  /** `next(counter)`: the id handed out and the iterator left behind. */
  function Next(c: Counter): (int, Counter) {
    if c.pending != [] then (c.pending[0], Counter(c.pending[1..], c.count))
    else (c.count, Counter([], c.count + 1))
  }

  /** `it.chain([n], counter)`. */
  function Push(c: Counter, n: int): Counter {
    Counter([n] + c.pending, c.count)
  }

  /** The state of the registry: the dictionary's keys in insertion order, its entries, and the counter. */
  datatype Registry = Registry(order: seq<int>, table: map<int, Factor>, counter: Counter)

  datatype FactorError =
    | AssertionFailed(id: int)  // `assert n not in self.__factors` at st.py:49
    | NoSuchFactor(id: int)     // the ValueError of st.py:59

  /**
   * The invariant `add_factor` relies on: keys are listed once each and
   * exactly the listed keys have entries; recycled ids are distinct and none
   * is active; every active or recycled id lies below the running count, which is never negative.
   */
  ghost predicate Inv(s: Registry) {
    && Distinct(s.order)
    && (forall n :: n in s.order <==> n in s.table)
    && Distinct(s.counter.pending)
    && (forall n :: n in s.counter.pending ==> n !in s.table && 0 <= n < s.counter.count)
    && (forall n :: n in s.table ==> 0 <= n < s.counter.count)
    && 0 <= s.counter.count
  }

  /** No id occurs twice. */
  ghost predicate Distinct(xs: seq<int>) {
    forall i, j :: 0 <= i < j < |xs| ==> xs[i] != xs[j]
  }

  /** The registry of a freshly constructed `ST` before its initial factors are added. */
  const Empty := Registry([], map[], Counter([], 0))

  /** `add_factor(factor)`: draws an id, checks it is unused, and appends the factor under it. */
  function Add(s: Registry, factor: Option<Factor>): Result<(Registry, int), FactorError> {
    var f := factor.GetOr(DefaultFactor);
    var (n, c) := Next(s.counter);
    if n in s.table then Failure(AssertionFailed(n))
    else Success((Registry(s.order + [n], s.table[n := f], c), n))
  }

  /** `xs` without the occurrences of `n`, the rest in order. */
  function Without(xs: seq<int>, n: int): (ys: seq<int>)
    ensures |ys| <= |xs|
  {
    if xs == [] then []
    else (if xs[0] == n then [] else [xs[0]]) + Without(xs[1..], n)
  }

  /** `remove_factor(n)`: drops the entry and puts `n` in front of the counter, or raises when `n` is absent. */
  function Remove(s: Registry, n: int): Result<Registry, FactorError> {
    if n !in s.table then Failure(NoSuchFactor(n))
    else Success(Registry(Without(s.order, n), s.table - {n}, Push(s.counter, n)))
  }

  /** The registry after `__init__` added `factors` one by one; `None` when an addition fails. */
  function Init(factors: seq<Factor>): Option<Registry> {
    if factors == [] then Some(Empty)
    else
      match Init(factors[..|factors| - 1])
      case None => None
      case Some(s) =>
        match Add(s, Some(factors[|factors| - 1]))
        case Failure(_) => None
        case Success((s', _)) => Some(s')
  }

  /** The dictionary as `factors` hands it out: its items in insertion order. */
  function Items(s: Registry): (items: seq<(int, Factor)>)
    requires forall i :: 0 <= i < |s.order| ==> s.order[i] in s.table
    ensures |items| == |s.order|
    ensures forall i :: 0 <= i < |items| ==> items[i] == (s.order[i], s.table[s.order[i]])
  {
    seq(|s.order|, i requires 0 <= i < |s.order| => (s.order[i], s.table[s.order[i]]))
  }

  // ---------------------------------------------------------------- lemmas

  /** Pushing an id and drawing the next one gives that id back and restores the counter. */
  lemma PushNext(c: Counter, n: int)
    ensures Next(Push(c, n)) == (n, c)
  {
    assert ([n] + c.pending)[1..] == c.pending;
  }

  /** Under the invariant the id the counter hands out next is never active: the assert at st.py:49 cannot fail. */
  lemma NextInactive(s: Registry)
    requires Inv(s)
    ensures Next(s.counter).0 !in s.table
    ensures 0 <= Next(s.counter).0 < Next(s.counter).1.count
  {
    var c := s.counter;
    if c.pending != [] {
      assert c.pending[0] in c.pending;
      assert Next(c) == (c.pending[0], Counter(c.pending[1..], c.count));
    } else {
      assert c.count !in s.table;
      assert Next(c) == (c.count, Counter([], c.count + 1));
    }
  }

  /**
   * `add_factor` never fails under the invariant: it appends the id the
   * counter hands out, stores the factor (or `(0., None)`) under it, leaves
   * every other entry alone and keeps the invariant.
   */
  lemma AddSpec(s: Registry, factor: Option<Factor>)
    requires Inv(s)
    ensures Add(s, factor).Success?
    ensures var (s', n) := Add(s, factor).value;
      && n == Next(s.counter).0 && n !in s.table
      && s'.order == s.order + [n]
      && s'.table == s.table[n := if factor.Some? then factor.value else DefaultFactor]
      && s'.counter == Next(s.counter).1
      && Inv(s')
  {
    NextInactive(s);
    var (s', n) := Add(s, factor).value;
    var c := s.counter;
    if c.pending != [] {
      forall i, j | 0 <= i < j < |s'.counter.pending|
        ensures s'.counter.pending[i] != s'.counter.pending[j]
      {
        assert s'.counter.pending[i] == c.pending[i + 1] && s'.counter.pending[j] == c.pending[j + 1];
      }
      forall m | m in s'.counter.pending
        ensures m !in s'.table && 0 <= m < s'.counter.count
      {
        var k :| 0 <= k < |s'.counter.pending| && s'.counter.pending[k] == m;
        assert c.pending[k + 1] == m;
      }
    }
  }

  /** `Without` removes exactly the occurrences of `n`. */
  lemma {:induction false} WithoutMembers(xs: seq<int>, n: int)
    ensures forall m :: m in Without(xs, n) <==> m in xs && m != n
  {
    if xs != [] {
      WithoutMembers(xs[1..], n);
      assert xs == [xs[0]] + xs[1..];
    }
  }

  /** `Without` keeps a duplicate-free list duplicate-free. */
  lemma {:induction false} WithoutDistinct(xs: seq<int>, n: int)
    requires Distinct(xs)
    ensures Distinct(Without(xs, n))
  {
    if xs != [] {
      WithoutDistinct(xs[1..], n);
      WithoutMembers(xs[1..], n);
      var rest := Without(xs[1..], n);
      assert xs[0] !in xs[1..] by {
        forall k | 0 <= k < |xs[1..]|
          ensures xs[1..][k] != xs[0]
        {
          assert xs[1..][k] == xs[k + 1];
        }
      }
      assert xs[0] !in rest;
      if xs[0] != n {
        var ys := Without(xs, n);
        assert ys == [xs[0]] + rest;
        assert ys[0] == xs[0];
        forall i, j | 0 <= i < j < |ys|
          ensures ys[i] != ys[j]
        {
          assert ys[j] == rest[j - 1] && rest[j - 1] in rest;
          if i > 0 {
            assert ys[i] == rest[i - 1];
            assert rest[i - 1] != rest[j - 1];
          }
        }
      } else {
        assert Without(xs, n) == rest;
      }
    }
  }

  /** Removing an absent key leaves a list unchanged. */
  lemma {:induction false} WithoutAbsent(xs: seq<int>, n: int)
    requires n !in xs
    ensures Without(xs, n) == xs
  {
    if xs != [] {
      WithoutAbsent(xs[1..], n);
      assert xs == [xs[0]] + xs[1..];
    }
  }

  /**
   * `remove_factor(n)` raises exactly when `n` is not active and then
   * changes nothing; otherwise it removes only `n`, keeps the other keys in
   * their order, puts `n` in front of the counter and keeps the invariant.
   */
  lemma RemoveSpec(s: Registry, n: int)
    requires Inv(s)
    ensures Remove(s, n).Failure? <==> n !in s.table
    ensures Remove(s, n).Failure? ==> Remove(s, n).error == NoSuchFactor(n)
    ensures Remove(s, n).Success? ==>
      var s' := Remove(s, n).value;
      && s'.order == Without(s.order, n)
      && (forall m :: m in s'.table <==> m in s.table && m != n)
      && (forall m :: m in s'.table ==> s'.table[m] == s.table[m])
      && s'.counter == Push(s.counter, n)
      && Inv(s')
  {
    if n in s.table {
      var s' := Remove(s, n).value;
      WithoutMembers(s.order, n);
      WithoutDistinct(s.order, n);
      assert n !in s.counter.pending;
      forall i, j | 0 <= i < j < |s'.counter.pending|
        ensures s'.counter.pending[i] != s'.counter.pending[j]
      {
        if i == 0 {
          assert s'.counter.pending[j] == s.counter.pending[j - 1];
        } else {
          assert s'.counter.pending[i] == s.counter.pending[i - 1] && s'.counter.pending[j] == s.counter.pending[j - 1];
        }
      }
    }
  }

  /** `0, 1, ..., k - 1`. */
  function Range(k: nat): (r: seq<int>)
    ensures |r| == k && forall i :: 0 <= i < k ==> r[i] == i
  {
    seq(k, i => i)
  }

  /**
   * Constructing `ST` with k factors adds them under ids 0 .. k-1, in that
   * order, each storing the given factor, with nothing recycled and k the
   * next count id.
   */
  lemma {:induction false} InitSpec(factors: seq<Factor>)
    ensures Init(factors).Some?
    ensures var s := Init(factors).value;
      && Inv(s)
      && s.order == Range(|factors|)
      && (forall i :: 0 <= i < |factors| ==> i in s.table && s.table[i] == factors[i])
      && s.counter == Counter([], |factors|)
  {
    if factors != [] {
      var k := |factors| - 1;
      InitSpec(factors[..k]);
      var s := Init(factors[..k]).value;
      AddSpec(s, Some(factors[k]));
      var s' := Init(factors).value;
      assert s'.order == Range(k) + [k];
      forall i | 0 <= i < |factors|
        ensures i in s'.table && s'.table[i] == factors[i]
      {
        if i < k {
          assert factors[..k][i] == factors[i];
        }
      }
    }
  }

  /** A removed id is the next one handed out: removal followed by addition reuses it, appended at the end. */
  lemma RemoveThenAdd(s: Registry, n: int, factor: Option<Factor>)
    requires Inv(s) && n in s.table
    ensures Remove(s, n).Success?
    ensures var s1 := Remove(s, n).value;
      Add(s1, factor).Success? && Add(s1, factor).value.1 == n
      && Add(s1, factor).value.0.order == Without(s.order, n) + [n]
  {
    RemoveSpec(s, n);
    var s1 := Remove(s, n).value;
    AddSpec(s1, factor);
    PushNext(s.counter, n);
  }

  /** Two removals are undone in reverse order: the next two additions get the second id, then the first. */
  lemma RemovalsComeBackReversed(s: Registry, a: int, b: int, f: Option<Factor>, g: Option<Factor>)
    requires Inv(s) && a in s.table && b in s.table && a != b
    ensures Remove(s, a).Success? && Remove(Remove(s, a).value, b).Success?
    ensures var s2 := Remove(Remove(s, a).value, b).value;
      && Add(s2, f).Success? && Add(s2, f).value.1 == b
      && Add(Add(s2, f).value.0, g).Success? && Add(Add(s2, f).value.0, g).value.1 == a
  {
    RemoveSpec(s, a);
    var s1 := Remove(s, a).value;
    RemoveSpec(s1, b);
    var s2 := Remove(s1, b).value;
    AddSpec(s2, f);
    PushNext(s1.counter, b);
    var s3 := Add(s2, f).value.0;
    AddSpec(s3, g);
    PushNext(s.counter, a);
  }

  /**
   * A worked run: add, add, remove(0), add leaves ids 0 and 1 active,
   * iterated as [1, 0] (the re-added 0 goes last), and the next addition
   * gets the count id 2.
   */
  lemma ExampleRun()
    ensures var s0 := Empty;
      && Add(s0, None).Success?
      && var s1 := Add(s0, None).value.0;
      && Add(s1, None).Success?
      && var s2 := Add(s1, None).value.0;
      && Remove(s2, 0).Success?
      && var s3 := Remove(s2, 0).value;
      && Add(s3, None).Success?
      && var s4 := Add(s3, None).value.0;
      && s4.order == [1, 0]
      && Add(s4, None).Success? && Add(s4, None).value.1 == 2
  {
    var s1 := Add(Empty, None).value.0;
    var s2 := Add(s1, None).value.0;
    assert s2.order == [0, 1];
    var s3 := Remove(s2, 0).value;
    assert Without([0, 1], 0) == [1] by {
      assert [0, 1][1..] == [1];
      assert [1][1..] == [];
    }
  }

  // ------------------------------------------------------------ the class

  /** The factor bookkeeping of `ST`: the dictionary, the counter and the default scale. */
  class ST {
    var order: seq<int>
    var table: map<int, Factor>
    var pending: seq<int>
    var count: int
    const defaultScale: real

    function State(): Registry
      reads this
    {
      Registry(order, table, Counter(pending, count))
    }

    ghost predicate Valid()
      reads this
    {
      Inv(State())
    }

    /** `ST(factors=..., default_scale=...)`: starts empty and adds the given factors in order. */
    constructor (factors: seq<Factor> := [], defaultScale: real := 1.0)
      ensures Valid() && this.defaultScale == defaultScale
      ensures Init(factors).Some? && State() == Init(factors).value
    {
      order, table, pending, count := [], map[], [], 0;
      this.defaultScale := defaultScale;
      new;
      for i := 0 to |factors|
        invariant Valid() && Init(factors[..i]).Some? && State() == Init(factors[..i]).value
      {
        assert factors[..i + 1][..i] == factors[..i];
        AddFactor(Some(factors[i]));
      }
      assert factors[..|factors|] == factors;
    }

    /** `add_factor(factor=None)`. */
    method AddFactor(factor: Option<Factor> := None)
      requires Valid()
      modifies this
      ensures Valid()
      ensures Add(old(State()), factor).Success? && State() == Add(old(State()), factor).value.0
    {
      AddSpec(State(), factor);
      var f := factor.GetOr(DefaultFactor);
      var n: int;
      if pending != [] {
        n, pending := pending[0], pending[1..];
      } else {
        n, count := count, count + 1;
      }
      table := table[n := f];
      order := order + [n];
    }

    /** `remove_factor(n)`: raises (here: returns `Fail`) and changes nothing when `n` is not active. */
    method RemoveFactor(n: int) returns (res: Outcome<FactorError>)
      requires Valid()
      modifies this
      ensures Valid()
      ensures Remove(old(State()), n).Failure? ==> res == Fail(Remove(old(State()), n).error) && State() == old(State())
      ensures Remove(old(State()), n).Success? ==> res == Pass && State() == Remove(old(State()), n).value
    {
      RemoveSpec(State(), n);
      if n !in table {
        return Fail(NoSuchFactor(n));
      }
      table := table - {n};
      order := Without(order, n);
      pending := [n] + pending;
      res := Pass;
    }

    /**
     * The `factors` property: a copy of the dictionary, its items in
     * insertion order. The copy is a value, so nothing done to it reaches
     * the registry.
     */
    method GetFactors() returns (items: seq<(int, Factor)>)
      requires Valid()
      ensures |items| == |order|
      ensures forall i :: 0 <= i < |items| ==> items[i].0 == order[i] && items[i].1 == table[order[i]]
    {
      var s := State();
      assert Inv(s) && s.order == order && s.table == table;
      forall i | 0 <= i < |s.order|
        ensures s.order[i] in s.table
      {
        assert s.order[i] in s.order;
      }
      items := Items(s);
    }
  }
}

=== FILE: histonet.dfy ===
/**
 * The image network `Histonet` (hssl/network.py:53-220) reduced to what can
 * be stated without its weights: the channel and spatial-size arithmetic
 * of its layer stacks, the defaults of `Unpool`, and its single latent `z`.
 *
 * A layer maps the shape (channels, height, width) of one image to the
 * shape it produces, or to None where PyTorch raises (a channel count that
 * does not match the layer, a kernel larger than the padded input). The
 * batch dimension is left out: no layer here changes it.
 */
module Histonet {
  import opened Wrappers
  import opened Tensors
  import opened Latents

  /** The size arguments of `Conv2d(in, out, kernel, stride, padding)`. */
  datatype ConvSpec = ConvSpec(inChannels: nat, outChannels: nat, kernel: nat, stride: nat, padding: nat)

  /** `Unpool`: nearest-neighbour upsampling by `scaleFactor`, then a stride-1 convolution. */
  datatype Unpool = Unpool(conv: ConvSpec, scaleFactor: nat)

  /** `Unpool(in_channels, out_channels=None, kernel_size=3, stride=2, padding=None)`. */
  function MakeUnpool(inChannels: nat, outChannels: Option<nat> := None, kernelSize: nat := 3,
                      stride: nat := 2, padding: Option<nat> := None): Unpool
  {
    Unpool(ConvSpec(inChannels, outChannels.GetOr(inChannels), kernelSize, 1, padding.GetOr(kernelSize / 2)), stride)
  }

  datatype Layer =
    | Conv(spec: ConvSpec)
    | Up(unpool: Unpool)
    | LeakyReLU
    | BatchNorm(features: nat)
    | Tanh
    | Softplus

  /** The shape of one image or feature map. */
  datatype Feature = Feature(channels: nat, height: nat, width: nat)

  /** The output length of a convolution along one axis, `(n + 2p - k) / s + 1`. */
  function ConvLength(n: nat, kernel: nat, stride: nat, padding: nat): Option<nat>
  {
    if stride == 0 || n + 2 * padding < kernel then None
    else Some((n + 2 * padding - kernel) / stride + 1)
  }

  function ApplyConv(c: ConvSpec, x: Feature): Option<Feature>
  {
    if x.channels != c.inChannels then None
    else
      match (ConvLength(x.height, c.kernel, c.stride, c.padding), ConvLength(x.width, c.kernel, c.stride, c.padding))
      case (Some(h), Some(w)) => Some(Feature(c.outChannels, h, w))
      case _ => None
  }

  function Apply(l: Layer, x: Feature): Option<Feature>
  {
    match l
    case Conv(c) => ApplyConv(c, x)
    case Up(u) => ApplyConv(u.conv, Feature(x.channels, x.height * u.scaleFactor, x.width * u.scaleFactor))
    case BatchNorm(n) => if x.channels == n then Some(x) else None
    case _ => Some(x)
  }

  /** `t.nn.Sequential(*layers)` applied to a feature map of shape `x`. */
  function Run(layers: seq<Layer>, x: Feature): Option<Feature>
    decreases |layers|
  {
    if layers == [] then Some(x)
    else
      match Apply(layers[0], x)
      case None => None
      case Some(y) => Run(layers[1..], y)
  }

  function Then(x: Option<Feature>, layers: seq<Layer>): Option<Feature>
  {
    match x
    case None => None
    case Some(y) => Run(layers, y)
  }

  /** One encoder stage: a k4/s2/p1 convolution, LeakyReLU, BatchNorm2d. */
  function DownBlock(inC: nat, outC: nat): seq<Layer> {
    [Conv(ConvSpec(inC, outC, 4, 2, 1)), LeakyReLU, BatchNorm(outC)]
  }

  /** `self.encoder` (network.py:90-108). */
  function Encoder(nf: nat): seq<Layer> {
    DownBlock(3, 2 * nf) + DownBlock(2 * nf, 4 * nf) + DownBlock(4 * nf, 8 * nf) + DownBlock(8 * nf, 16 * nf)
  }

  /** `self.z_mu` and `self.z_sd`, which have the same layers (network.py:110-121). */
  function LatentHead(nf: nat, latentSize: nat): seq<Layer> {
    [Conv(ConvSpec(16 * nf, 16 * nf, 3, 1, 1)), LeakyReLU, BatchNorm(16 * nf), Conv(ConvSpec(16 * nf, latentSize, 3, 1, 1))]
  }

  /** One decoder stage: `Unpool(in, out, 5)`, LeakyReLU, BatchNorm2d. */
  function UpBlock(inC: nat, outC: nat): seq<Layer> {
    [Up(MakeUnpool(inC, Some(outC), 5)), LeakyReLU, BatchNorm(outC)]
  }

  /** `self.decoder` (network.py:125-146). */
  function Decoder(nf: nat, latentSize: nat): seq<Layer> {
    [Conv(ConvSpec(latentSize, 16 * nf, 5, 1, 4)), LeakyReLU, BatchNorm(16 * nf)]
      + UpBlock(16 * nf, 8 * nf) + UpBlock(8 * nf, 4 * nf) + UpBlock(4 * nf, 2 * nf) + UpBlock(2 * nf, nf)
  }

  /** `img_mu` (last = [Tanh]), `img_sd` (last = [Softplus]) and `mixture_loadings` (last = []). */
  function OutputHead(nf: nat, outC: nat, last: seq<Layer>): seq<Layer> {
    [Conv(ConvSpec(nf, nf, 3, 1, 1)), LeakyReLU, BatchNorm(nf), Conv(ConvSpec(nf, outC, 3, 1, 1))] + last
  }

  /**
   * `center_crop(y, [None, None, h, w])` on shapes. The helper's own code
   * is not part of this model; only a crop to a size no larger than the map
   * is given a result.
   */
  function Crop(y: Feature, h: nat, w: nat): Option<Feature> {
    if h <= y.height && w <= y.width then Some(Feature(y.channels, h, w)) else None
  }

  /** The shapes returned by `Histonet.forward`: z, the image Normal's parameters, the loadings, the decoder state. */
  datatype ForwardShapes = ForwardShapes(z: Feature, image: Feature, loadings: Feature, state: Feature)

  /** `forward(x)` (network.py:206-220) on shapes: encode, decode, crop each pixel output to `x`'s size. */
  function Forward(nf: nat, latentSize: nat, numFactors: nat, x: Feature): Option<ForwardShapes>
  {
    match Then(Run(Encoder(nf), x), LatentHead(nf, latentSize))
    case None => None
    case Some(z) =>
      match Run(Decoder(nf, latentSize), z)
      case None => None
      case Some(state) =>
        match (Run(OutputHead(nf, 3, [Tanh]), state), Run(OutputHead(nf, numFactors, []), state))
        case (Some(img), Some(loadings)) =>
          (match (Crop(img, x.height, x.width), Crop(loadings, x.height, x.width), Crop(state, x.height, x.width))
           case (Some(img'), Some(loadings'), Some(state')) => Some(ForwardShapes(z, img', loadings', state'))
           case _ => None)
        case _ => None
  }

  // ---------------------------------------------------------------- lemmas

  lemma {:induction false} RunAppend(a: seq<Layer>, b: seq<Layer>, x: Feature)
    ensures Run(a + b, x) == Then(Run(a, x), b)
    decreases |a|
  {
    if a == [] {
      assert a + b == b;
    } else {
      assert (a + b)[0] == a[0];
      assert (a + b)[1..] == a[1..] + b;
      match Apply(a[0], x)
      case None =>
      case Some(y) => RunAppend(a[1..], b, y);
    }
  }

  /** `padding` defaults to `kernel_size // 2` and `out_channels` to `in_channels`; the convolution has stride 1. */
  lemma UnpoolDefaults(inChannels: nat, kernelSize: nat, stride: nat)
    ensures MakeUnpool(inChannels, None, kernelSize, stride, None).conv
         == ConvSpec(inChannels, inChannels, kernelSize, 1, kernelSize / 2)
    ensures MakeUnpool(inChannels, None, kernelSize, stride, None).scaleFactor == stride
    ensures MakeUnpool(inChannels) == Unpool(ConvSpec(inChannels, inChannels, 3, 1, 1), 2)
  {
  }

  /** With default padding and an odd kernel, an `Unpool` multiplies height and width by its stride. */
  lemma UnpoolScales(c: nat, out: Option<nat>, kernelSize: nat, stride: nat, h: nat, w: nat)
    requires kernelSize % 2 == 1 && stride >= 1 && h >= 1 && w >= 1
    ensures Apply(Up(MakeUnpool(c, out, kernelSize, stride)), Feature(c, h, w))
         == Some(Feature(out.GetOr(c), stride * h, stride * w))
  {
    StrideAtLeast(h, stride);
    StrideAtLeast(w, stride);
  }

  lemma StrideAtLeast(h: nat, stride: nat)
    requires h >= 1 && stride >= 1
    ensures h * stride >= 1 && stride * h == h * stride
  {
  }

  /** Each encoder stage halves height and width (rounding down), and refuses a side shorter than 2. */
  lemma DownBlockShape(inC: nat, outC: nat, x: Feature)
    ensures Run(DownBlock(inC, outC), x)
         == if x.channels == inC && x.height >= 2 && x.width >= 2
            then Some(Feature(outC, x.height / 2, x.width / 2)) else None
  {
    var b := DownBlock(inC, outC);
    assert b[1..] == [LeakyReLU, BatchNorm(outC)];
    assert b[1..][1..] == [BatchNorm(outC)];
    assert b[1..][1..][1..] == [];
    if x.channels == inC && x.height >= 2 && x.width >= 2 {
      var y := Feature(outC, x.height / 2, x.width / 2);
      assert ConvLength(x.height, 4, 2, 1) == Some(x.height / 2);
      assert ConvLength(x.width, 4, 2, 1) == Some(x.width / 2);
      assert Apply(b[0], x) == Some(y);
      assert Run(b[1..][1..], y) == Some(y);
      assert Run(b[1..], y) == Some(y);
    } else {
      assert Apply(b[0], x) == None;
    }
  }

  /** The encoder maps an H x W RGB image to a 16nf-channel map of size (H/16) x (W/16); smaller images are refused. */
  lemma {:induction false} EncoderShape(nf: nat, x: Feature)
    ensures Run(Encoder(nf), x)
         == if x.channels == 3 && x.height >= 16 && x.width >= 16
            then Some(Feature(16 * nf, x.height / 16, x.width / 16)) else None
  {
    var b1, b2, b3, b4 := DownBlock(3, 2 * nf), DownBlock(2 * nf, 4 * nf), DownBlock(4 * nf, 8 * nf), DownBlock(8 * nf, 16 * nf);
    RunAppend(b1 + b2 + b3, b4, x);
    RunAppend(b1 + b2, b3, x);
    RunAppend(b1, b2, x);
    var o1 := Run(b1, x);
    var o2 := Then(o1, b2);
    var o3 := Then(o2, b3);
    var o4 := Then(o3, b4);
    assert Run(Encoder(nf), x) == o4;
    HalvedFourTimes(x.height);
    HalvedFourTimes(x.width);
    DownBlockShape(3, 2 * nf, x);
    if o1.Some? {
      DownBlockShape(2 * nf, 4 * nf, o1.value);
      if o2.Some? {
        DownBlockShape(4 * nf, 8 * nf, o2.value);
        if o3.Some? {
          DownBlockShape(8 * nf, 16 * nf, o3.value);
        }
      }
    }
  }

  /** Four halvings of a side leave at least 1 exactly when the side is at least 16, and give `n / 16`. */
  lemma HalvedFourTimes(n: nat)
    ensures (n >= 2 && n / 2 >= 2 && n / 2 / 2 >= 2 && n / 2 / 2 / 2 >= 2) <==> n >= 16
    ensures n / 2 / 2 / 2 / 2 == n / 16
  {
  }

  /** `z_mu` and `z_sd` keep the spatial size of a non-empty map and output `latentSize` channels. */
  lemma LatentHeadShape(nf: nat, latentSize: nat, h: nat, w: nat)
    requires h >= 1 && w >= 1
    ensures Run(LatentHead(nf, latentSize), Feature(16 * nf, h, w)) == Some(Feature(latentSize, h, w))
  {
    var l := LatentHead(nf, latentSize);
    var y := Feature(16 * nf, h, w);
    var last := Conv(ConvSpec(16 * nf, latentSize, 3, 1, 1));
    assert l[1..] == [LeakyReLU, BatchNorm(16 * nf), last];
    assert l[1..][1..] == [BatchNorm(16 * nf), last];
    assert l[1..][1..][1..] == [last];
    assert l[1..][1..][1..][1..] == [];
    assert Apply(l[0], y) == Some(y);
    assert Run([last], y) == Some(Feature(latentSize, h, w));
    assert Run(l[1..][1..], y) == Some(Feature(latentSize, h, w));
    assert Run(l[1..], y) == Some(Feature(latentSize, h, w));
  }

  /** Each decoder stage doubles height and width. */
  lemma UpBlockShape(inC: nat, outC: nat, h: nat, w: nat)
    requires h >= 1 && w >= 1
    ensures Run(UpBlock(inC, outC), Feature(inC, h, w)) == Some(Feature(outC, 2 * h, 2 * w))
  {
    var b := UpBlock(inC, outC);
    var y := Feature(outC, 2 * h, 2 * w);
    UnpoolScales(inC, Some(outC), 5, 2, h, w);
    assert b[1..] == [LeakyReLU, BatchNorm(outC)];
    assert b[1..][1..] == [BatchNorm(outC)];
    assert b[1..][1..][1..] == [];
    assert Apply(b[0], Feature(inC, h, w)) == Some(y);
    assert Run(b[1..][1..], y) == Some(y);
    assert Run(b[1..], y) == Some(y);
  }

  /** The padding-4 convolution adds 4 to each side length and the four `Unpool`s multiply it by 16. */
  lemma {:induction false} DecoderShape(nf: nat, latentSize: nat, h: nat, w: nat)
    ensures Run(Decoder(nf, latentSize), Feature(latentSize, h, w)) == Some(Feature(nf, 16 * (h + 4), 16 * (w + 4)))
  {
    var first := [Conv(ConvSpec(latentSize, 16 * nf, 5, 1, 4)), LeakyReLU, BatchNorm(16 * nf)];
    var u1, u2, u3, u4 := UpBlock(16 * nf, 8 * nf), UpBlock(8 * nf, 4 * nf), UpBlock(4 * nf, 2 * nf), UpBlock(2 * nf, nf);
    var x := Feature(latentSize, h, w);
    assert Decoder(nf, latentSize) == first + u1 + u2 + u3 + u4;
    RunAppend(first + u1 + u2 + u3, u4, x);
    RunAppend(first + u1 + u2, u3, x);
    RunAppend(first + u1, u2, x);
    RunAppend(first, u1, x);
    assert first[1..] == [LeakyReLU, BatchNorm(16 * nf)];
    assert first[1..][1..] == [BatchNorm(16 * nf)];
    assert first[1..][1..][1..] == [];
    var y := Feature(16 * nf, h + 4, w + 4);
    assert Apply(first[0], x) == Some(y);
    assert Run(first[1..][1..], y) == Some(y);
    assert Run(first[1..], y) == Some(y);
    assert Run(first, x) == Some(y);
    UpBlockShape(16 * nf, 8 * nf, h + 4, w + 4);
    UpBlockShape(8 * nf, 4 * nf, 2 * (h + 4), 2 * (w + 4));
    UpBlockShape(4 * nf, 2 * nf, 4 * (h + 4), 4 * (w + 4));
    UpBlockShape(2 * nf, nf, 8 * (h + 4), 8 * (w + 4));
  }

  /** The output heads keep the spatial size of a non-empty map and output `outC` channels. */
  lemma OutputHeadShape(nf: nat, outC: nat, last: seq<Layer>, h: nat, w: nat)
    requires h >= 1 && w >= 1
    requires last == [] || last == [Tanh] || last == [Softplus]
    ensures Run(OutputHead(nf, outC, last), Feature(nf, h, w)) == Some(Feature(outC, h, w))
  {
    var last' := Conv(ConvSpec(nf, outC, 3, 1, 1));
    var core := [Conv(ConvSpec(nf, nf, 3, 1, 1)), LeakyReLU, BatchNorm(nf), last'];
    var y, z := Feature(nf, h, w), Feature(outC, h, w);
    assert OutputHead(nf, outC, last) == core + last;
    RunAppend(core, last, y);
    assert core[1..] == [LeakyReLU, BatchNorm(nf), last'];
    assert core[1..][1..] == [BatchNorm(nf), last'];
    assert core[1..][1..][1..] == [last'];
    assert core[1..][1..][1..][1..] == [];
    assert Apply(core[0], y) == Some(y);
    assert Run([last'], y) == Some(z);
    assert Run(core[1..][1..], y) == Some(z);
    assert Run(core[1..], y) == Some(z);
    assert Run(core, y) == Some(z);
    if last != [] {
      assert last[1..] == [];
      assert Run(last, z) == Some(z);
    }
  }

  /** The decoded side length 16 * (n / 16 + 4) exceeds the input's n by 49 to 64 pixels. */
  lemma DecodedExceedsInput(n: nat)
    ensures n + 49 <= 16 * (n / 16 + 4) <= n + 64
  {
  }

  /**
   * `forward` succeeds exactly on RGB images of at least 16 x 16 pixels; z
   * is (latentSize, H/16, W/16) and every pixel output is cropped to H x W,
   * a crop that only ever removes pixels.
   */
  lemma {:induction false} ForwardShape(nf: nat, latentSize: nat, numFactors: nat, x: Feature)
    ensures Forward(nf, latentSize, numFactors, x).Some? <==> x.channels == 3 && x.height >= 16 && x.width >= 16
    ensures Forward(nf, latentSize, numFactors, x).Some? ==>
      Forward(nf, latentSize, numFactors, x).value == ForwardShapes(
        Feature(latentSize, x.height / 16, x.width / 16),
        Feature(3, x.height, x.width),
        Feature(numFactors, x.height, x.width),
        Feature(nf, x.height, x.width))
  {
    EncoderShape(nf, x);
    if x.channels == 3 && x.height >= 16 && x.width >= 16 {
      var h, w := x.height / 16, x.width / 16;
      LatentHeadShape(nf, latentSize, h, w);
      DecoderShape(nf, latentSize, h, w);
      DecodedExceedsInput(x.height);
      DecodedExceedsInput(x.width);
      OutputHeadShape(nf, 3, [Tanh], 16 * (h + 4), 16 * (w + 4));
      OutputHeadShape(nf, numFactors, [], 16 * (h + 4), 16 * (w + 4));
    }
  }

  /** The latent registered by `Histonet.__init__`: `Variable(Normal())` with prior `Normal()`, local. */
  const ZLatent := Latent(Variable(Unparameterised, None), Unparameterised, false)

  /** `Histonet` holds exactly one latent, z, and it is local, so `complexity_cost` never scales it. */
  lemma HistonetCost(l: Latent, batchFraction: real, kl: Latent -> real)
    requires !l.isGlobal
    ensures ComplexityCost(Registry(["z"], map["z" := l]), batchFraction, kl) == kl(l)
  {
    var r := Registry(["z"], map["z" := l]);
    assert r.ids[1..] == [];
    assert Cost(r.ids[1..], r.table, batchFraction, kl) == 0.0;
    assert Weight(r.table["z"], batchFraction) == 1.0;
  }

  /** `Histonet`: its layer sizes and its latent registry (the `Variational` base part). */
  class Histonet {
    const numFactors: nat
    const latentSize: nat
    const nf: nat
    const latents: Variational

    ghost predicate Valid()
      reads this, latents
    {
      latents.Valid() && latents.ids == ["z"]
    }

    constructor (numFactors: nat := 50, latentSize: nat := 96, nf: nat := 16)
      ensures Valid() && fresh(latents)
      ensures this.numFactors == numFactors && this.latentSize == latentSize && this.nf == nf
      ensures latents.State() == Registry(["z"], map["z" := ZLatent])
    {
      this.numFactors := numFactors;
      this.latentSize := latentSize;
      this.nf := nf;
      latents := new Variational();
      new;
      var registered := latents.RegisterLatent(ZLatent.variable, ZLatent.prior, "z");
    }

    /**
     * `encode(x)` once the encoder and the two heads have produced `zMu` and
     * `zSd`: z's distribution is set to Normal(zMu, zSd) and `draw` becomes
     * its value. The networks and the sampler are not part of this model.
     */
    method Encode(zMu: Tensor, zSd: Tensor, draw: Tensor) returns (z: Tensor, mu: Tensor, sd: Tensor)
      requires Valid()
      modifies latents
      ensures Valid()
      ensures z == draw && mu == zMu && sd == zSd
      ensures latents.table == old(latents.table)["z" := old(latents.table)["z"].(variable := Variable(Normal(zMu, zSd, true), Some(draw)))]
    {
      latents.SetVariable("z", Variable(Normal(zMu, zSd, true), Some(draw)));
      z, mu, sd := draw, zMu, zSd;
    }
  }
}

=== FILE: latents.dfy ===
/**
 * The latent-variable registry that `Histonet` and `STD` share through their
 * base class `Variational` (hssl/network.py:17-50).
 *
 * The source stores each latent as three dynamic attributes (`id`, `id_p`,
 * `id_is_global`) and keeps the registration order in the list `_latents`.
 * Here the attributes are one map from id to a `Latent` record and the list
 * is a sequence of ids. Distributions and sampled values are plain values.
 */
module Latents {
  import opened Wrappers
  import opened Tensors

  /**
   * A distribution as far as the bookkeeping sees it: a Normal built with
   * no parameters (`Normal()`), or a Normal with a location, a raw scale
   * (mapped to a positive one by the reparameterising transform) and
   * whether its parameters receive gradients.
   */
  datatype Dist =
    | Unparameterised
    | Normal(loc: Tensor, scale: Tensor, learnable: bool)

  /** A sampled latent: its variational distribution and its last draw (None before the first). */
  datatype Variable = Variable(q: Dist, value: Option<Tensor>)

  /** What `_get_latent` returns: the variable, its prior and the `is_global` flag. */
  datatype Latent = Latent(variable: Variable, prior: Dist, isGlobal: bool)

  datatype LatentError =
    | AlreadyRegistered(id: string)   // RuntimeError at network.py:30
    | NotRegistered(id: string)       // AttributeError from getattr at network.py:40

  /** The registry's state: `_latents` and the attributes set for each id. */
  datatype Registry = Registry(ids: seq<string>, table: map<string, Latent>) {
    /** Every id occurs once, and exactly the listed ids have attributes. */
    ghost predicate Valid() {
      && (forall i, j :: 0 <= i < j < |ids| ==> ids[i] != ids[j])
      && (forall id :: id in ids <==> id in table)
    }
  }

  const Empty := Registry([], map[])

  /** `_register_latent(variable, prior, id, is_global)`. */
  function Register(r: Registry, id: string, v: Variable, p: Dist, isGlobal: bool := false): (res: Result<Registry, LatentError>)
  {
    if id in r.ids then Failure(AlreadyRegistered(id))
    else Success(Registry(r.ids + [id], r.table[id := Latent(v, p, isGlobal)]))
  }

  /** `_get_latent(id)`. */
  function Get(r: Registry, id: string): (res: Result<Latent, LatentError>)
  {
    if id in r.table then Success(r.table[id]) else Failure(NotRegistered(id))
  }

  /** The factor applied to a latent's cost: `batch_fraction if is_global else 1.` */
  function Weight(l: Latent, batchFraction: real): real {
    if l.isGlobal then batchFraction else 1.0
  }

  /**
   * `complexity_cost(batch_fraction)` over the ids in `ids`; `kl` is the
   * summed `log q(x) - log p(x)` of one latent, left uninterpreted.
   */
  function Cost(ids: seq<string>, table: map<string, Latent>, batchFraction: real, kl: Latent -> real): real
    requires forall i :: 0 <= i < |ids| ==> ids[i] in table
  {
    if ids == [] then 0.0
    else kl(table[ids[0]]) * Weight(table[ids[0]], batchFraction) + Cost(ids[1..], table, batchFraction, kl)
  }

  function ComplexityCost(r: Registry, batchFraction: real, kl: Latent -> real): real
    requires r.Valid()
  {
    Cost(r.ids, r.table, batchFraction, kl)
  }

  /** The plain sum of the costs of the latents whose `is_global` flag is `global`. */
  function CostWhere(ids: seq<string>, table: map<string, Latent>, global: bool, kl: Latent -> real): real
    requires forall i :: 0 <= i < |ids| ==> ids[i] in table
  {
    if ids == [] then 0.0
    else (if table[ids[0]].isGlobal == global then kl(table[ids[0]]) else 0.0)
         + CostWhere(ids[1..], table, global, kl)
  }

  /** Registering a new id appends it and binds exactly that triple; an existing id is refused and nothing changes. */
  lemma RegisterSpec(r: Registry, id: string, v: Variable, p: Dist, isGlobal: bool)
    requires r.Valid()
    ensures id in r.ids <==> Register(r, id, v, p, isGlobal).Failure?
    ensures id in r.ids ==> Register(r, id, v, p, isGlobal) == Failure(AlreadyRegistered(id))
    ensures id !in r.ids ==>
      var r' := Register(r, id, v, p, isGlobal).value;
      && r'.Valid()
      && r'.ids == r.ids + [id]
      && Get(r', id) == Success(Latent(v, p, isGlobal))
      && forall other :: other != id ==> Get(r', other) == Get(r, other)
  {
  }

  /** The cost splits into the global latents' cost scaled by the batch fraction plus the local latents' cost. */
  lemma {:induction false} CostSplit(ids: seq<string>, table: map<string, Latent>, batchFraction: real, kl: Latent -> real)
    requires forall i :: 0 <= i < |ids| ==> ids[i] in table
    ensures Cost(ids, table, batchFraction, kl)
         == batchFraction * CostWhere(ids, table, true, kl) + CostWhere(ids, table, false, kl)
  {
    if ids != [] {
      CostSplit(ids[1..], table, batchFraction, kl);
    }
  }

  /** The plain sum of every latent's cost. */
  function PlainCost(ids: seq<string>, table: map<string, Latent>, kl: Latent -> real): real
    requires forall i :: 0 <= i < |ids| ==> ids[i] in table
  {
    if ids == [] then 0.0 else kl(table[ids[0]]) + PlainCost(ids[1..], table, kl)
  }

  /** An empty registry costs 0, and with a batch fraction of 1 the cost is the plain sum. */
  lemma {:induction false} CostUnitFraction(r: Registry, batchFraction: real, kl: Latent -> real)
    requires r.Valid()
    ensures r.ids == [] ==> ComplexityCost(r, batchFraction, kl) == 0.0
    ensures ComplexityCost(r, 1.0, kl) == PlainCost(r.ids, r.table, kl)
  {
    UnitCost(r.ids, r.table, kl);
  }

  lemma {:induction false} UnitCost(ids: seq<string>, table: map<string, Latent>, kl: Latent -> real)
    requires forall i :: 0 <= i < |ids| ==> ids[i] in table
    ensures Cost(ids, table, 1.0, kl) == PlainCost(ids, table, kl)
  {
    if ids != [] {
      UnitCost(ids[1..], table, kl);
    }
  }

  /** Registering one more latent adds exactly its weighted cost to `complexity_cost`. */
  lemma RegisterAddsCost(r: Registry, id: string, v: Variable, p: Dist, isGlobal: bool, batchFraction: real, kl: Latent -> real)
    requires r.Valid() && id !in r.ids
    ensures Register(r, id, v, p, isGlobal).Success?
    ensures var r' := Register(r, id, v, p, isGlobal).value;
      r'.Valid() &&
      ComplexityCost(r', batchFraction, kl)
        == ComplexityCost(r, batchFraction, kl) + kl(Latent(v, p, isGlobal)) * Weight(Latent(v, p, isGlobal), batchFraction)
  {
    var l := Latent(v, p, isGlobal);
    var r' := Registry(r.ids + [id], r.table[id := l]);
    assert Register(r, id, v, p, isGlobal) == Success(r');
    AppendCost(r, id, l, batchFraction, kl);
    assert ComplexityCost(Register(r, id, v, p, isGlobal).value, batchFraction, kl) == ComplexityCost(r', batchFraction, kl);
  }

  lemma AppendCost(r: Registry, id: string, l: Latent, batchFraction: real, kl: Latent -> real)
    requires r.Valid() && id !in r.ids
    ensures Registry(r.ids + [id], r.table[id := l]).Valid()
    ensures ComplexityCost(Registry(r.ids + [id], r.table[id := l]), batchFraction, kl)
         == ComplexityCost(r, batchFraction, kl) + kl(l) * Weight(l, batchFraction)
  {
    var r' := Registry(r.ids + [id], r.table[id := l]);
    AppendValid(r, id, l);
    assert forall i :: 0 <= i < |r.ids| ==> r.ids[i] in r.table;
    CostAppend(r.ids, r.table, id, l, batchFraction, kl);
    assert ComplexityCost(r', batchFraction, kl) == Cost(r'.ids, r'.table, batchFraction, kl);
  }

  /** Appending a fresh id and binding it keeps the registry valid. */
  lemma AppendValid(r: Registry, id: string, l: Latent)
    requires r.Valid() && id !in r.ids
    ensures Registry(r.ids + [id], r.table[id := l]).Valid()
  {
    var ids := r.ids + [id];
    forall i, j | 0 <= i < j < |ids|
      ensures ids[i] != ids[j]
    {
      if j == |r.ids| {
        assert ids[i] == r.ids[i] && r.ids[i] in r.ids;
      }
    }
  }

  lemma {:induction false} CostAppend(ids: seq<string>, table: map<string, Latent>, id: string, l: Latent, batchFraction: real, kl: Latent -> real)
    requires forall i :: 0 <= i < |ids| ==> ids[i] in table
    requires id !in ids
    ensures Cost(ids + [id], table[id := l], batchFraction, kl)
         == Cost(ids, table, batchFraction, kl) + kl(l) * Weight(l, batchFraction)
  {
    if ids == [] {
      assert ids + [id] == [id];
    } else {
      assert (ids + [id])[1..] == ids[1..] + [id];
      CostAppend(ids[1..], table, id, l, batchFraction, kl);
    }
  }

  /**
   * The base class `Variational`: the registration order and the latents
   * registered so far, appended to by `RegisterLatent`.
   */
  class Variational {
    var ids: seq<string>
    var table: map<string, Latent>

    function State(): Registry
      reads this
    {
      Registry(ids, table)
    }

    ghost predicate Valid()
      reads this
    {
      State().Valid()
    }

    constructor ()
      ensures Valid() && State() == Empty
    {
      ids := [];
      table := map[];
    }

    /** Raises `RuntimeError` (here: returns `Fail`) and changes nothing when `id` is taken. */
    method RegisterLatent(v: Variable, p: Dist, id: string, isGlobal: bool := false) returns (res: Outcome<LatentError>)
      requires Valid()
      modifies this
      ensures Valid()
      ensures Register(old(State()), id, v, p, isGlobal).Success? ==>
        res == Pass && State() == Register(old(State()), id, v, p, isGlobal).value
      ensures Register(old(State()), id, v, p, isGlobal).Failure? ==>
        res == Fail(Register(old(State()), id, v, p, isGlobal).error) && State() == old(State())
    {
      if id in ids {
        return Fail(AlreadyRegistered(id));
      }
      table := table[id := Latent(v, p, isGlobal)];
      ids := ids + [id];
      res := Pass;
    }

    /** Replaces the variable registered under `id` in place, as `sample()` and `set()` do to the shared object. */
    method SetVariable(id: string, v: Variable)
      requires Valid() && id in table
      modifies this
      ensures Valid() && ids == old(ids)
      ensures table == old(table)[id := old(table)[id].(variable := v)]
    {
      table := table[id := table[id].(variable := v)];
    }

    /** Replaces the latent registered under `id` in place, as overwriting its parameters' `.data` does. */
    method Replace(id: string, l: Latent)
      requires Valid() && id in table
      modifies this
      ensures Valid() && ids == old(ids)
      ensures table == old(table)[id := l]
    {
      table := table[id := l];
    }
  }
}

=== FILE: tensors.dfy ===
/**
 * Real-valued tensors of rank 0, 1 and 2, the only ranks the modelled
 * bookkeeping touches, with the matrix algebra the count model and the
 * label pooling are written in. Reals stand for the source's float tensors;
 * rounding is not modelled.
 */
module Tensors {

  type Matrix = seq<seq<real>>

  /** `m` has `rows` rows of `cols` entries each. */
  predicate IsMatrix(m: Matrix, rows: nat, cols: nat) {
    |m| == rows && forall i :: 0 <= i < |m| ==> |m[i]| == cols
  }

  /** The shape of a tensor: `()`, `(n,)` or `(rows, cols)`. */
  datatype Shape = Dim0 | Dim1(n: nat) | Dim2(rows: nat, cols: nat)

  datatype Tensor = Scalar(x: real) | Vec(v: seq<real>) | Mat(m: Matrix) {
    predicate HasShape(s: Shape) {
      match s
      case Dim0 => Scalar?
      case Dim1(n) => Vec? && |v| == n
      case Dim2(r, c) => Mat? && IsMatrix(m, r, c)
    }
  }

  /** `torch.full(shape, x)`: `zeros` for x = 0, `-5 * ones` for x = -5. */
  function Full(s: Shape, x: real): (t: Tensor)
    ensures t.HasShape(s)
    ensures t.Vec? ==> forall i :: 0 <= i < |t.v| ==> t.v[i] == x
    ensures t.Mat? ==> forall i, j :: 0 <= i < |t.m| && 0 <= j < |t.m[i]| ==> t.m[i][j] == x
  {
    match s
    case Dim0 => Scalar(x)
    case Dim1(n) => Vec(Constant(n, x))
    case Dim2(r, c) => Mat(seq(r, _ => Constant(c, x)))
  }

  /** A vector of `n` copies of `x`. */
  function Constant(n: nat, x: real): (v: seq<real>)
    ensures |v| == n && forall i :: 0 <= i < n ==> v[i] == x
  {
    seq(n, _ => x)
  }

  /** `sum(xs)`. */
  function Sum(xs: seq<real>): real {
    if xs == [] then 0.0 else xs[0] + Sum(xs[1..])
  }

  /** The inner product of two vectors of equal length. */
  function Dot(a: seq<real>, b: seq<real>): real
    requires |a| == |b|
  {
    if a == [] then 0.0 else a[0] * b[0] + Dot(a[1..], b[1..])
  }

  /** Column `j` of `m`. */
  function Column(m: Matrix, j: nat): (c: seq<real>)
    requires forall i :: 0 <= i < |m| ==> j < |m[i]|
    ensures |c| == |m|
  {
    seq(|m|, i requires 0 <= i < |m| => m[i][j])
  }

  /** `m.t()` for a matrix with `cols` columns. */
  function Transpose(m: Matrix, cols: nat): (t: Matrix)
    requires IsMatrix(m, |m|, cols)
    ensures IsMatrix(t, cols, |m|)
  {
    seq(cols, j requires 0 <= j < cols => Column(m, j))
  }

  /** `a @ b` for `b` with `cols` columns. */
  function MatMul(a: Matrix, b: Matrix, cols: nat): (c: Matrix)
    requires IsMatrix(a, |a|, |b|) && IsMatrix(b, |b|, cols)
    ensures IsMatrix(c, |a|, cols)
  {
    seq(|a|, i requires 0 <= i < |a| => seq(cols, j requires 0 <= j < cols => Dot(a[i], Column(b, j))))
  }

  /** Elementwise `exp` of a matrix; `exp` itself is a parameter. */
  function MapExp(m: Matrix, exp: real -> real): (e: Matrix)
    ensures |e| == |m| && forall i :: 0 <= i < |m| ==> |e[i]| == |m[i]|
  {
    seq(|m|, i requires 0 <= i < |m| => seq(|m[i]|, j requires 0 <= j < |m[i]| => exp(m[i][j])))
  }

  /** The `n`-long indicator vector of position `k`. */
  function Indicator(n: nat, k: nat): (u: seq<real>)
    ensures |u| == n
  {
    seq(n, i => if i == k then 1.0 else 0.0)
  }

  lemma {:induction false} DotZeros(a: seq<real>, b: seq<real>)
    requires |a| == |b|
    requires forall i :: 0 <= i < |a| ==> a[i] == 0.0
    ensures Dot(a, b) == 0.0
  {
    if a != [] {
      DotZeros(a[1..], b[1..]);
    }
  }

  /** The indicator of `k` picks entry `k` out of `b`. */
  lemma {:induction false} DotIndicator(n: nat, k: nat, b: seq<real>)
    requires k < n == |b|
    ensures Dot(Indicator(n, k), b) == b[k]
  {
    var u := Indicator(n, k);
    if k == 0 {
      assert u[0] == 1.0;
      DotZeros(u[1..], b[1..]);
    } else {
      assert u[1..] == Indicator(n - 1, k - 1);
      DotIndicator(n - 1, k - 1, b[1..]);
    }
  }

  /** Row `j` of `m` is column `j` of its transpose. */
  lemma TransposeColumn(m: Matrix, cols: nat, j: nat)
    requires IsMatrix(m, |m|, cols) && j < |m|
    ensures Column(Transpose(m, cols), j) == m[j]
  {
  }

}

=== FILE: wrappers.dfy ===
/** Option and Result wrappers for the model's error paths. */
module Wrappers {

  /** An optional value: Python's `None` or a present value. */
  datatype Option<+T> = None | Some(value: T) {
    function GetOr(default: T): T {
      match this
      case Some(v) => v
      case None => default
    }
  }

  /** A value or the exception that the source raises instead of returning it. */
  datatype Result<+R, +E> = Success(value: R) | Failure(error: E)

  /** The outcome of a statement that returns nothing but may raise. */
  datatype Outcome<+E> = Pass | Fail(error: E)
}
